=== FILE: README.md ===
# Rental client listing logic, in Dafny

This project models the logic of a React Native rental marketplace client. Users browse a feed of rentable listings, open a listing, and manage their own listings; they can also sign up and sign in. The model covers:

- **The listings store** (the `items` slice of the Redux store). It holds:
  - the browse feed;
  - the signed-in user's own listings;
  - the listing on the detail screen;
  - one set of pagination counters that both lists share;
  - the loading and error flags.

  Every reducer is a pure state transition (`ItemsSlice`). Properties that relate several reducer calls are in `ItemsSliceLemmas`.
- **The service layer.** This covers:
  - the requests that `itemsService` issues, in particular the feed query string (`Query`, `ItemsService`);
  - reading the query string back into parameters, the way a server splits it (`Query.ParseQuery`);
  - the two error classifiers;
  - the session persistence of `authService` over an abstract key–value storage (`Session`, `AuthService`).

  Properties relating the two services are in `ServiceLemmas`.
- **The decision logic inside the screens.** Each screen has a module:
  - `HomeScreen`: the browse feed;
  - `ItemDetailScreen`: one listing;
  - `MyItemsScreen`: the owner's list;
  - `AddItemScreen`: the create form;
  - `AuthScreens`: login and registration.

  A screen handler is a pure function. Its inputs are the state before the handler and the `Reply` the transport produced for its service call: a body, or a failure. It returns the requests it sent, the actions it dispatched, and the alert it raised, if any. For the screens that use the store, the store afterwards is stated to be the slice's reducer folded over the dispatched actions (`ItemsSlice.ReduceAll`). The transport is therefore an abstract service that may fail, and the model can state two things:
  - nothing is sent when validation fails;
  - nothing changes when the call fails.

Supporting modules:

- `Wrappers`: `Option` and `Result`.
- `Text`: `trim`, `toLowerCase` and decimal rendering.
- `Js`: JavaScript truthiness and template-literal stringification.
- `Seqs`: order-preserving subsequences.
- `Domain` and `Transport`: the records exchanged with the backend.
- `Availability`: the status label and the rent button shared by the screens.

## Model

| member | source | states |
|---|---|---|
| `ItemsSlice.Initial` | src/store/slices/itemsSlice.js:3-12 | The initial store: both lists empty, no listing on screen, not loading, no error, page 1 of 0 with 0 items. |
| `ItemsSlice.SetLoading` | src/store/slices/itemsSlice.js:18-20 | Only the loading flag changes. Lists, listing on screen, counters and error stay as they were. |
| `ItemsSlice.SetError` | src/store/slices/itemsSlice.js:21-23 | Only the error changes. Lists, listing on screen, counters and loading flag stay. |
| `ItemsSlice.SetItems` | src/store/slices/itemsSlice.js:24-29 | The feed becomes the page's listings and the counters become the page's. The owned list, the listing on screen and the flags stay. |
| `ItemsSlice.AppendItems` | src/store/slices/itemsSlice.js:30-35 | The feed is the old feed followed by the page, in order. Its length is the sum of the two, with no de-duplication. The counters are overwritten with the page's. |
| `ItemsSlice.SetMyItems` | src/store/slices/itemsSlice.js:36-41 | The owned list is replaced wholesale and the feed is untouched. The shared counters are overwritten with the owned page's. |
| `ItemsSlice.SetCurrentItem` | src/store/slices/itemsSlice.js:42-44 | The listing on screen becomes the payload, possibly none. Nothing else changes. |
| `ItemsSlice.AddItem` | src/store/slices/itemsSlice.js:45-47 | The new listing is at index 0 of the owned list, and every earlier entry moves up by one. The feed, the listing on screen and the counters stay. |
| `ItemsSlice.FindIndex` | src/store/slices/itemsSlice.js:49 | `findIndex` by id: -1 exactly when no listing holds the id, otherwise the first position that holds it. |
| `ItemsSlice.ReplaceFirst` | src/store/slices/itemsSlice.js:49-52 | Only the first position holding the id is overwritten. The length is kept. |
| `ItemsSlice.UpdateItem` | src/store/slices/itemsSlice.js:48-56 | Only the first owned listing with the id is replaced, and the listing on screen is replaced exactly when its id matches. The feed is never touched. |
| `ItemsSlice.RemoveById` | src/store/slices/itemsSlice.js:58-59 | No listing left holds the id. Every listing with another id is kept exactly as often as it occurred. |
| `ItemsSlice.RemoveItem` | src/store/slices/itemsSlice.js:57-60 | Neither list holds the id afterwards, and every other listing survives in both. The listing on screen, the counters and the flags are unchanged. |
| `ItemsSlice.PatchFirst` | src/store/slices/itemsSlice.js:63-66 | Only the first listing holding the id gets the new availability. Every other position is unchanged. |
| `ItemsSlice.UpdateItemAvailability` | src/store/slices/itemsSlice.js:61-74 | The first matching owned listing, the first matching feed listing, and the listing on screen when its id matches get the new availability. Lengths, counters and flags are kept. |
| `ItemsSlice.ClearError` | src/store/slices/itemsSlice.js:83-85 | The error is cleared and nothing else changes. |
| `ItemsSlice.ClearItems` | src/store/slices/itemsSlice.js:75-82 | Lists, listing on screen and counters return to their initial values. Loading and error are left as they were. |
| `ItemsSliceLemmas.RemoveByIdKeepsOrder` | src/store/slices/itemsSlice.js:58-59 | The listings a removal keeps form an order-preserving subsequence of the list. |
| `ItemsSliceLemmas.RemoveByIdAbsent` | src/store/slices/itemsSlice.js:58 | Removing an id that no listing holds returns the list unchanged. |
| `ItemsSliceLemmas.RemoveItemIdempotent` | src/store/slices/itemsSlice.js:57-60 | `removeItem` twice is `removeItem` once. |
| `ItemsSliceLemmas.RemoveItemKeepsOrder` | src/store/slices/itemsSlice.js:57-60 | After `removeItem`, both lists are order-preserving subsequences of what they were, and `findIndex` of the id is -1 in both. |
| `ItemsSliceLemmas.FindIndexByIds` | src/store/slices/itemsSlice.js:63-67 | `findIndex` depends only on the ids: two lists with the same ids position by position give the same index. |
| `ItemsSliceLemmas.AvailabilityPatchOnlyTouchesAvailability` | src/store/slices/itemsSlice.js:61-74 | Every listing in either list, and the listing on screen, keeps every field other than availability. |
| `ItemsSliceLemmas.AvailabilityPatchOnlyFirstMatch` | src/store/slices/itemsSlice.js:63-70 | In the owned list and in the feed alike, every position other than the first match is untouched by the patch. |
| `ItemsSliceLemmas.PatchFirstIdempotent` | src/store/slices/itemsSlice.js:63-66 | On one list, patching twice is patching once. |
| `ItemsSliceLemmas.AvailabilityPatchIdempotent` | src/store/slices/itemsSlice.js:61-74 | Dispatching the same availability patch twice is dispatching it once. |
| `ItemsSliceLemmas.AvailabilityPatchMissesDuplicate` | src/store/slices/itemsSlice.js:67-70 | In a feed holding one listing twice, only the first copy is patched and the second keeps its old status. |
| `ItemsSliceLemmas.AppendKeepsDuplicates` | src/store/slices/itemsSlice.js:31 | A listing in both the feed and the appended page occurs at least twice afterwards. |
| `ItemsSliceLemmas.OwnedPageClobbersFeedCounters` | src/store/slices/itemsSlice.js:24-41 | `setMyItems` after `setItems` keeps the feed's listings but leaves the owned page's counters in place of the feed's. |
| `ItemsSliceLemmas.UpdateItemLeavesFeedCopy` | src/store/slices/itemsSlice.js:48-56 | After `updateItem`, a listing present in both lists is replaced in the owned list while the feed still shows the old copy. |
| `ItemsSliceLemmas.ClearItemsIdempotent` | src/store/slices/itemsSlice.js:75-82 | Clearing twice is clearing once, and a cleared store holds no listing. |
| `ItemsSliceLemmas.ReduceAllAppend` | src/store/slices/itemsSlice.js:17-86 | Dispatching one action list and then another is dispatching their concatenation. |
| `ItemsService.ItemPath` | src/services/items.service.js:28 | `${prefix}/${id}`: the prefix, one slash, then the id verbatim. |
| `ItemsService.GetAllItemsRequest` | src/services/items.service.js:6-18 | The feed fetch is a GET with no body. Its path is the feed prefix followed by the query string. |
| `ItemsService.GetItemByIdRequest` | src/services/items.service.js:26-33 | A GET of `{prefix}/{id}` with no body. |
| `ItemsService.GetItemsByOwnerRequest` | src/services/items.service.js:35-44 | A GET with no body. Its path is stated by `ServiceLemmas.OwnerQueryIsBareFeedQuery`. |
| `ItemsService.CreateItemRequest` | src/services/items.service.js:47-54 | A POST of the payload to the create prefix. |
| `ItemsService.UpdateItemRequest` | src/services/items.service.js:57-64 | A PUT of the payload to `{prefix}/{id}`. |
| `ItemsService.DeleteItemRequest` | src/services/items.service.js:67-74 | A DELETE of `{prefix}/{id}` with no body. |
| `ItemsService.UpdateAvailabilityRequest` | src/services/items.service.js:76-86 | A PATCH of `{prefix}/{id}/availability` whose body is exactly the availability. |
| `ItemsService.FirstTruthy` | src/services/items.service.js:90-92 | A chain of `or`-ed candidate messages yields the first truthy candidate, so `msg` wins over `message`. It yields the fallback exactly when no candidate is truthy. |
| `ItemsService.HandleError` | src/services/items.service.js:88-93 | With a server answer, the message is `data.msg`, else `data.message`, else "An error occurred". Without one, it is the request's own message, else "Network error". The message is never empty. |
| `Query.QueryString` | src/services/items.service.js:8-16 | The feed query string always begins with `?page=P&limit=L`. |
| `Query.QueryParams` | src/services/items.service.js:8-10 | The first two parameters are page and limit, defaulting to 1 and 10 only when left `undefined`. |
| `QueryLemmas.QueryStringRendersParams` | src/services/items.service.js:10-16 | The builder's string is exactly the parameter list written out as `?k1=v1&k2=v2...`. |
| `QueryLemmas.TailOfIncluded` | src/services/items.service.js:11-16 | The six conditional appends produce exactly the `&key=value` pairs of the included keys, in order. |
| `QueryLemmas.LookupIncluded` | src/services/items.service.js:11-16 | Among distinct keys, a key is found exactly when its value is truthy, and then with that value rendered. |
| `QueryLemmas.OptionalKeyPresentIffTruthy` | src/services/items.service.js:11-16 | An optional key is in the feed query exactly when its value is truthy, and then carries that value verbatim. A `minPrice` of 0 or an empty search is left out. |
| `QueryLemmas.QueryKeysOrderedAndUnique` | src/services/items.service.js:10-16 | The keys are page, limit, then a subsequence of category, city, minPrice, maxPrice, search, availability. No key appears twice. |
| `QueryLemmas.ParseRenderRoundTrip` | src/services/items.service.js:10-16 | A parameter list whose keys hold no `&` or `=`, and whose values hold no `&`, reads back as itself. |
| `QueryLemmas.QueryParamsUnambiguous` | src/services/items.service.js:8-16 | When no value holds `&`, no feed parameter holds a separator. |
| `QueryLemmas.QueryRoundTrip` | src/services/items.service.js:8-16 | A feed query whose values hold no `&` reads back as exactly its parameters. |
| `QueryLemmas.SplicedValue` | src/services/items.service.js:15 | A value holding `&k=v` renders exactly like a separate pair `(k, v)`, because values are spliced in unencoded. |
| `QueryLemmas.SearchOnlyParams` | src/services/items.service.js:8-16 | A query that sets only a search text carries exactly page 1, limit 10 and the search. |
| `QueryLemmas.SearchTextInjectsParameter` | src/services/items.service.js:15 | A search text `a&city=b` reads back as a city filter that the caller never set. |
| `ServiceLemmas.SegmentsOfFalsy` | src/services/items.service.js:11-16 | When every optional value is falsy, no conditional append fires. |
| `ServiceLemmas.OwnerQueryIsBareFeedQuery` | src/services/items.service.js:35-39 | The owner path is `{prefix}/{ownerId}` followed by the feed query string of a filter setting only page and limit. It carries exactly those two parameters. |
| `ServiceLemmas.OwnerQueryDefaults` | src/services/items.service.js:37-39 | With no page or limit, the owner query ends in `?page=1&limit=10`. |
| `ServiceLemmas.ClassifiersAgreeWithoutResponse` | src/services/auth.service.js:69-74 | Without a server answer, the two classifiers give the same network error. |
| `ServiceLemmas.ClassifiersDifferOnlyOnMsg` | src/services/auth.service.js:70-72 | With a server answer, the classifiers disagree exactly when the body has a truthy `msg` that differs from the auth chain's message. |
| `ServiceLemmas.ClassifiersDisagreeExample` | src/services/auth.service.js:71 | A body with both `msg` and `message` yields the former from the items service and the latter from the auth service. |
| `ServiceLemmas.LoginThenRead` | src/services/auth.service.js:13-16 | After a login that returns a token, on a storage that accepts writes and reads of both session keys, the token and the user read back. |
| `ServiceLemmas.LoginThenLogout` | src/services/auth.service.js:58-62 | Logging out after such a login, on a storage that accepts writes and removals of both session keys, removes them, reports it, and leaves every other key as it was. |
| `ServiceLemmas.FailedLoginKeepsSession` | src/services/auth.service.js:19-21 | A failed login leaves the stored session as it was. |
| `ServiceLemmas.LogoutReportsSuccessWithTokenKept` | src/services/auth.service.js:58-66 | As written, logout reports success when the platform refuses the removal, and the token still reads back; the intended logout reports failure there. |
| `Session.SetItem` | src/utils/storage.js:11-20 | A write succeeds exactly when the platform accepts writes of that key, and then stores the value. A refused write changes nothing and reports `false`. Which keys fail is never changed. |
| `Session.RemoveItem` | src/utils/storage.js:32-40 | A removal succeeds exactly when the platform accepts removals of that key, and then deletes the key. A refused removal is swallowed, reported as `false`, and changes nothing. |
| `Session.GetItem` | src/utils/storage.js:22-30 | A read gives the stored value, or `null` when the key is absent or the read itself fails. Refused writes and removals do not affect reads. |
| `Session.SetThenGet` | src/utils/storage.js:11-30 | A successful write reads back when reads of the key succeed, and other keys read as before. |
| `Session.RefusedSetKeepsValue` | src/utils/storage.js:11-30 | A refused write reports `false` and the key reads as it did before. |
| `Session.RefusedRemoveKeepsValue` | src/utils/storage.js:22-40 | A refused removal reports `false` and the value still reads back. |
| `AuthService.HandleError` | src/services/auth.service.js:69-74 | With a server answer, the message is `data.message`, else "An error occurred", and `msg` is never read. Without one, it is the request's message, else "Network error". |
| `AuthService.Settle` | src/services/auth.service.js:39-46 | A call returns its answer, or throws the classified error. |
| `AuthService.Persist` | src/services/auth.service.js:13-16 | A truthy token writes the token and the user keys, each where the platform allows. A falsy token changes nothing. No other key is touched. |
| `AuthService.Login` | src/services/auth.service.js:6-22 | POSTs the credentials. Success returns the answer with the session persisted per the token rule. Failure throws the classified error and leaves the storage untouched. |
| `AuthService.Register` | src/services/auth.service.js:24-37 | The same as login, with the registration payload. |
| `AuthService.GetProfile` | src/services/auth.service.js:39-46 | A GET of the profile path. Nothing is stored. |
| `AuthService.UpdateProfile` | src/services/auth.service.js:48-56 | A PUT of the profile. On success the returned user is written under the user key, whatever the token, and no other key is touched. |
| `AuthService.Logout` | src/services/auth.service.js:58-67 | As written: both keys are removed where the platform allows, and the result is `true` in every case. |
| `AuthService.LogoutChecked` | src/services/auth.service.js:58-66 | As intended: `false` exactly when a removal fails, so `true` guarantees that both keys are gone. The storage is the same as logout's. |
| `Availability.Label` | src/screens/items/ItemDetailScreen.js:99-108 | "available" → "Available", "rented" → "Rented", anything else → "Unavailable". |
| `Availability.RentCaption` | src/screens/items/ItemDetailScreen.js:331 | "Rent Now" exactly when the rent button is enabled, and "Not Available" otherwise. |
| `Availability.LabelsDistinguishStatuses` | src/screens/items/ItemDetailScreen.js:99-108 | The three statuses get three different labels. Renting is enabled exactly when the badge reads "Available". An unknown status is labelled like "unavailable". |
| `HomeScreen.InitialHome` | src/screens/home/HomeScreen.js:34-41 | The feed mounts empty and loading, on page 1 of category "all", with more pages assumed. |
| `HomeScreen.FeedRequestParams` | src/screens/home/HomeScreen.js:53-64 | The page is 1 on a refresh and the screen's page otherwise, and the limit is 10. The category is sent exactly when it is not "all". The search is sent exactly when it is not blank, and then trimmed. No other filter is sent. |
| `HomeScreen.MergeFeed` | src/screens/home/HomeScreen.js:68-72 | Replace the list, or append the page after it in order. A missing `items` counts as empty. |
| `HomeScreen.MergeMatchesSlice` | src/screens/home/HomeScreen.js:68-72 | The screen's merge follows the store's `setItems`/`appendItems` rule. |
| `HomeScreen.FetchItems` | src/screens/home/HomeScreen.js:43-81 | Sends the feed query. On an answer, merges (replacing on a refresh or on page 1), clears the error and sets `hasMore` from `currentPage < totalPages`. On failure, keeps the list and `hasMore` and records the message. Both spinners stop. |
| `HomeScreen.HandleRefresh` | src/screens/home/HomeScreen.js:87-89 | A refresh asks for page 1 and replaces the list, or keeps it on failure. |
| `HomeScreen.HandleSearch` | src/screens/home/HomeScreen.js:91-94 | A search asks for page 1 and replaces the list, or keeps it on failure. |
| `HomeScreen.SelectCategory` | src/screens/home/HomeScreen.js:96-99 | The category is selected and the page reset to 1. Nothing else changes. |
| `HomeScreen.LoadMore` | src/screens/home/HomeScreen.js:101-105 | The page advances by exactly one when not loading and more pages exist. Otherwise nothing changes. |
| `HomeScreen.CategoryChangeReplacesFeed` | src/screens/home/HomeScreen.js:96-99 | The fetch after a category change asks for page 1 and replaces the list. |
| `HomeScreen.LoadMoreThenFetchAppends` | src/screens/home/HomeScreen.js:68-72 | A non-refresh fetch of the page load-more advanced to would ask for the next page and append its listings after those shown. The screen never issues it (see Findings). |
| `HomeScreen.LastPageStopsLoadMore` | src/screens/home/HomeScreen.js:74 | Once an answer reports its last page, load-more no longer advances. |
| `HomeScreen.FailedFetchKeepsFeed` | src/screens/home/HomeScreen.js:75-77 | A failed load-more, refresh or search never empties the feed or changes `hasMore`. |
| `HomeScreen.FeedPage` | src/screens/home/HomeScreen.js:53-56 | A fetch asks for page 1 on a refresh and for the screen's page otherwise. |
| `HomeScreen.EventCall` | src/screens/home/HomeScreen.js:83-105 | Refresh and search fetch as a refresh. A chip for another category fetches, not as a refresh, from the state with that category and page 1. Typing, the chip already selected and reaching the end of the list fetch nothing. |
| `HomeScreen.OnEvent` | src/screens/home/HomeScreen.js:83-105 | An event makes the fetch above and ends in that fetch's state. Otherwise: typing only sets the search text (src/screens/home/HomeScreen.js:215), reaching the end only advances the page, and the chip already selected only resets the page. The retry button's `fetchItems(true)` (src/screens/home/HomeScreen.js:318) is the refresh event. |
| `HomeScreen.Run` | src/screens/home/HomeScreen.js:83-105 | A sequence of events causes at most one fetch per event. |
| `HomeScreen.Mounted` | src/screens/home/HomeScreen.js:83-85 | The screen's first fetch is the mount effect's, not a refresh, on the initial state. |
| `HomeScreen.OnEventNeverAppends` | src/screens/home/HomeScreen.js:68-105 | No single event makes a fetch that takes the append branch. |
| `HomeScreen.RunNeverAppends` | src/screens/home/HomeScreen.js:68-105 | Whatever the events, no fetch they cause takes the append branch. |
| `HomeScreen.NoAppendAsksPageOne` | src/screens/home/HomeScreen.js:53-72 | A fetch that does not append asks for page 1. |
| `HomeScreen.TypedThenSearchedSendsText` | src/screens/home/HomeScreen.js:91-94 | Typing a text and then submitting the search makes exactly one fetch: a refresh from page 1 that reads the typed text. |
| `HomeScreen.MountedFetchesNeverAppend` | src/screens/home/HomeScreen.js:43-105 | As written, from mounting on, every fetch the feed makes asks for page 1 and replaces the list. |
| `HomeScreen.EndReachedFetchesNothing` | src/screens/home/HomeScreen.js:101-105 | After a first page that reports more, reaching the end twice moves the page to 3 and fetches nothing. |
| `HomeScreen.LoadMoreAndFetch` | src/screens/home/HomeScreen.js:101-105 | As intended: load-more fetches nothing when loading or at the last page. Otherwise it fetches the next page, not as a refresh, and appends it after the listings shown; a failure keeps them. |
| `ItemDetailScreen.FetchItem` | src/screens/items/ItemDetailScreen.js:38-49 | On an answer, its `data` becomes the listing on screen. On failure, the listing on screen is kept and the classified message is recorded. Loading ends false and the lists are untouched. |
| `ItemDetailScreen.HandleDelete` | src/screens/items/ItemDetailScreen.js:51-72 | A cancelled dialog does nothing. `removeItem` is dispatched, and the screen goes back, only after the DELETE succeeded. A failure alerts and leaves the store unchanged. |
| `ItemDetailScreen.HandleUpdateAvailability` | src/screens/items/ItemDetailScreen.js:74-86 | Choosing the current status sends nothing and changes nothing. Otherwise the PATCH is sent, and the store is patched only after it succeeded. A failure alerts and leaves the store unchanged. |
| `ItemDetailScreen.View` | src/screens/items/ItemDetailScreen.js:110-130 | The spinner exactly when loading with no listing. The error notice exactly when not loading, with a truthy error and no listing, and it shows that error. The blank view exactly when not loading, with no error and no listing. The details whenever there is a listing. Owner controls appear exactly for the owner (`user.id === currentItem.ownerId`). Everybody else gets the rent bar, enabled exactly for "available". |
| `ItemDetailScreen.FailedReloadKeepsDetails` | src/screens/items/ItemDetailScreen.js:118 | A failed reload of a listing on screen keeps showing its details. |
| `ItemDetailScreen.FailedFirstLoadShowsError` | src/screens/items/ItemDetailScreen.js:118-128 | A failed first load shows the classified message. |
| `ItemDetailScreen.OwnershipSurvivesAvailabilityPatch` | src/screens/items/ItemDetailScreen.js:32 | An availability patch never changes who is the owner. |
| `ItemDetailScreen.RepeatedStatusIsNoOp` | src/screens/items/ItemDetailScreen.js:75 | After a successful change, asking for the same status again sends nothing. |
| `ItemDetailScreen.DeleteKeepsCurrentListing` | src/screens/items/ItemDetailScreen.js:62-64 | A successful delete removes the listing from both lists but keeps it as the listing on screen, and goes back. |
| `MyItemsScreen.WithStatus` | src/screens/items/MyItemsScreen.js:71 | The selected listings all have the status, come from the list, and keep the list's order. |
| `MyItemsScreen.WithStatusKeepsCount` | src/screens/items/MyItemsScreen.js:69-72 | Every listing with the status is kept exactly as often as the list holds it. |
| `MyItemsScreen.FilteredItems` | src/screens/items/MyItemsScreen.js:69-72 | "all" shows the list as it is. Any other tab shows exactly the listings with that status, with their multiplicities, as an order-preserving subsequence. |
| `MyItemsScreen.DisjointStatusesFit` | src/screens/items/MyItemsScreen.js:76-77 | Two different statuses together select no more listings than the list holds. |
| `MyItemsScreen.GetStats` | src/screens/items/MyItemsScreen.js:74-79 | The total is the list's length. The available and rented counts are the sizes of those selections, and their sum never exceeds the total. |
| `MyItemsScreen.StatsMatchTabs` | src/screens/items/MyItemsScreen.js:74-79 | The counts are the sizes of the "all", "available" and "rented" tabs, independent of the active tab. |
| `MyItemsScreen.UniformListShowsWhole` | src/screens/items/MyItemsScreen.js:69-72 | A list whose listings all share one status shows whole under that tab. |
| `MyItemsScreen.OwnedPage` | src/screens/items/MyItemsScreen.js:51-56 | The dispatched page holds the answer's listings, or `[]` when it has none, and its counters as they came. |
| `MyItemsScreen.FetchMyItems` | src/screens/items/MyItemsScreen.js:39-63 | Without a user id: no request and no dispatch. Otherwise: GET the owner's first page, replace the owned list and counters on an answer, keep them and record the message on failure, and end not loading. The feed is never touched. |
| `MyItemsScreen.RefreshEndsLikeLoad` | src/screens/items/MyItemsScreen.js:42-46 | A pull-to-refresh sends the same request and ends in the same store as a first load. |
| `AddItemScreen.EmptyForm` | src/screens/items/AddItemScreen.js:41-50 | The form opens with all nine text fields empty and the condition "good". |
| `AddItemScreen.ValidateForm` | src/screens/items/AddItemScreen.js:52-74 | The form passes exactly when title, description, price per day and city are not blank, a category is chosen, and the price reads as a number (positivity is not checked). Otherwise the message is one of the five. |
| `AddItemScreen.FirstFailure` | src/screens/items/AddItemScreen.js:52-74 | The message of the first failing rule: every earlier rule passed, and nothing is reported when all pass. |
| `AddItemScreen.ValidateIsFirstFailure` | src/screens/items/AddItemScreen.js:52-74 | Validation reports exactly the first failure of title, description, category, price, city, in that order. |
| `AddItemScreen.BlankFieldsRejected` | src/screens/items/AddItemScreen.js:53-72 | A blank title or description is rejected with its own message. "City is required" is reported exactly when all earlier fields pass and the city is blank. A price of "-5" passes when it reads as a number. |
| `AddItemScreen.Payload` | src/screens/items/AddItemScreen.js:83-96 | Title, description, city and address are sent trimmed. The day price is `Number` of its text. Week and month prices are `Number` of their text, and absent exactly when left empty. The deposit is `Number` of its text when typed, and the literal 0, rather than `Number` of a text, exactly when left empty. Category and condition are sent as chosen. |
| `AddItemScreen.PayloadIsNormalised` | src/screens/items/AddItemScreen.js:84-94 | Title, description, city and address are sent with no blank at either end, and re-entering them yields the same payload. |
| `AddItemScreen.Submit` | src/screens/items/AddItemScreen.js:76-115 | The submit sequence for a judged form. Nothing is sent exactly when the form was rejected. |
| `AddItemScreen.HandleSubmit` | src/screens/items/AddItemScreen.js:76-115 | An invalid form records its message and sends nothing. A valid one POSTs the payload and ends not loading. Success only alerts, failure records the message. No listing in the store changes either way. |
| `AddItemScreen.InvalidFormSendsNothing` | src/screens/items/AddItemScreen.js:77 | With a blank title, a blank city or no category, nothing is sent and only the error changes. |
| `AuthScreens.NormaliseEmailIdempotent` | src/screens/auth/LoginScreen.js:27 | Normalising an email twice is normalising it once. The normalised email is blank exactly when the typed one is. |
| `AuthScreens.Around` | src/screens/auth/LoginScreen.js:24-34 | Loading on and error cleared first, loading off last. |
| `AuthScreens.Conclude` | src/screens/auth/LoginScreen.js:18-35 | A rejection dispatches only its message and calls nothing. Otherwise the call's outcome is dispatched and its storage kept. |
| `AuthScreens.LoginRejection` | src/screens/auth/LoginScreen.js:19-22 | Rejected with "Email and password are required" exactly when either field is blank. |
| `AuthScreens.HandleLogin` | src/screens/auth/LoginScreen.js:18-35 | A blank field: one message and no call. Otherwise login with the email trimmed and lower-cased and the password verbatim, then set user and token, or only the error. |
| `AuthScreens.FailedLoginSetsOnlyError` | src/screens/auth/LoginScreen.js:30-32 | A failed login dispatches no user and no token, only the error, and leaves the session storage alone. |
| `AuthScreens.LoginSendsNormalisedEmail` | src/screens/auth/LoginScreen.js:27 | Typing the email already normalised sends the same request. The password is sent as typed. |
| `AuthScreens.ValidateRegistration` | src/screens/auth/RegisterScreen.js:24-32 | "All fields are required" exactly when a required field is blank (street and city are optional). "Password must be at least 6 characters" exactly when all are filled and the untrimmed password's `.length`, in UTF-16 code units, is below 6. |
| `AuthScreens.RegistrationPayload` | src/screens/auth/RegisterScreen.js:37-47 | The email is trimmed and lower-cased, and the password is sent verbatim. First name, last name, phone, street and city are sent trimmed. |
| `AuthScreens.RegistrationPayloadStable` | src/screens/auth/RegisterScreen.js:37-47 | Re-entering the payload yields the same payload and passes validation again. |
| `AuthScreens.TrimKeepsFilled` | src/screens/auth/RegisterScreen.js:38-42 | A non-blank field stays non-blank, and unchanged, when trimmed again. |
| `AuthScreens.HandleRegister` | src/screens/auth/RegisterScreen.js:23-55 | A rejected form (by the rules above, the password measured in UTF-16 units) dispatches its one message and calls nothing. Otherwise register with the normalised payload, then set user and token, or only the error. |
| `AuthScreens.RequiredCheckedBeforeLength` | src/screens/auth/RegisterScreen.js:24-32 | A blank name with a short password reports the missing fields, not the password. |
| `AuthScreens.UntrimmedPasswordLength` | src/screens/auth/RegisterScreen.js:29-41 | The length counts the password as typed: `"  abcd"` passes and is sent with its blanks, while `"abcde"` is too short. |
| `AuthScreens.AstralPasswordAccepted` | src/screens/auth/RegisterScreen.js:29 | A password of two letters and two emoji is four characters but six UTF-16 units long, so it passes and registration is called. Four plain letters are too short. |
| `Text.Utf16Length` | src/screens/auth/RegisterScreen.js:29 | `.length` counts at least one and at most two units per character. |
| `Text.Utf16LengthIsCount` | src/screens/auth/RegisterScreen.js:29 | `.length` equals the number of characters exactly when no character lies outside the Basic Multilingual Plane. |
| `Text.TrimEmptyIff` | src/screens/items/AddItemScreen.js:53 | `!x.trim()` holds exactly when `x` is all whitespace. |
| `Text.TrimIdempotent` | src/screens/items/AddItemScreen.js:84 | Trimming twice is trimming once. |
| `Text.LowerNormalises` | src/screens/auth/LoginScreen.js:27 | A lower-cased string has no upper-case ASCII letter, is unchanged by a second lower-casing, and keeps every non-letter. |
| `Text.NatToStringRoundTrip` | src/services/items.service.js:10 | Reading back a rendered page number gives the number. |
| `Text.NatToStringInjective` | src/services/items.service.js:10 | Different page numbers render differently. |

## Left out

- I/O and asynchrony. The transport and AsyncStorage are abstract: every service call is given the `Reply` it produced. A refused storage operation is modelled by three sets of keys: those whose reads, writes and removals the platform refuses, one for each `try`/`catch` of the storage wrapper. `storage.clear` is not used by the modelled code and is not modelled.
- React hook scheduling and interleaving. Each event of the feed is taken as atomic: state updates in one handler are batched, and the effect on `selectedCategory` runs on the state they produce. Fetches still in flight when the next event arrives are not modelled. There is no stale-response guard in the code and none in the model. The effect depends only on the selected category (src/screens/home/HomeScreen.js:83-85), so no fetch ever reads a page advanced by load-more; see Findings.
- The transient flags: the feed's loading and refreshing flags while a request is in flight, the detail screen's `updatingAvailability`, and the owner list's `refreshing`. Only their final values are stated.
- `AddItemScreen.ValidateForm`: which texts `Number(...)` accepts is a parameter (the set `numeric`), and the number itself stays symbolic (`NumberFrom(text)`). JavaScript's numeric grammar, floating-point prices and `toFixed` are not modelled.
- `Text.Lower`: `toLowerCase` is modelled on ASCII letters only.
- `Js.Show`: numbers are integers. `NaN` and fractions are not modelled.
- Item endpoint prefixes: `ENDPOINTS.ITEMS` is not defined in the client's config, so the prefixes are the `ItemsService.Endpoints` parameter.
- Query values are sent unencoded, as in the code. URL encoding is not modelled, and its absence is stated by `QueryLemmas.SearchTextInjectsParameter`.
- `null` page counters: a missing `currentPage` or `totalPages` is `undefined` (`None`), and then `hasMore` is false. A `null` counter is not modelled, although JavaScript compares `null` as 0, so `null < 3` is true.
- `ItemDetailScreen.HandleUpdateAvailability`: with no listing on screen the code reads `currentItem.availability` of `null` and throws a TypeError before any request. The model returns without a request or a change instead.
- Alerts and navigation are outcome fields (`alert`, `wentBack`), not effects. The success alert's button that goes back is not modelled.
- The auth store slice is not part of this model. The login and registration screens are described by the actions they dispatch (`AuthScreens.AuthAction`).
- JSX rendering beyond what decides the shown view: images, ratings, prices, styles, the navigators and the app shell.
- `JSON.stringify` of the stored values: storage holds the values themselves, and a user of `undefined` is stored as `UserValue(None)`.

## Findings

| source | as written | input that shows it | evidently intended | confidence | as-written member | corrected member |
|---|---|---|---|---|---|---|
| src/screens/home/HomeScreen.js:68-105 | `handleLoadMore` only advances `page`. The only fetch that is not a refresh comes from the effect on `selectedCategory`, and the chip handler resets the page to 1 along with it. Refresh and search fetch as refreshes. So no fetch ever asks for page 2, and the append branch at line 71 is never taken. | Mount with a first page that reports more pages, then scroll to the end: the page becomes 2 and nothing is fetched. | Reaching the end fetches the next page and appends it. | medium: not executed | `HomeScreen.MountedFetchesNeverAppend`, `HomeScreen.EndReachedFetchesNothing` | `HomeScreen.LoadMoreAndFetch`, `HomeScreen.LoadMoreThenFetchAppends` |
| src/services/auth.service.js:58-66 | `logout` returns `false` only from its `catch`. But `storage.removeItem` (src/utils/storage.js:32-40) catches its own failure and returns `false` without throwing, so `logout` always returns `true`. | A storage holding a token, on a platform that refuses to remove it: `logout()` returns `true`, and `getItem` still reads the token back. | `false` when a removal failed, so that `true` means the session is gone. | medium: not executed | `AuthService.Logout`, `ServiceLemmas.LogoutReportsSuccessWithTokenKept` | `AuthService.LogoutChecked` |

=== FILE: add_item_screen.dfy ===
/** The form for a new listing: validation in a fixed order with one message
    per failed rule, the normalised payload, and the submit sequence. Which
    texts `!isNaN(Number(text))` accepts is a parameter, the set `numeric`: the
    model does not fix JavaScript's number grammar. */
module AddItemScreen {
  import opened Wrappers
  import opened Text
  import opened Domain
  import opened Transport
  import opened ItemsSlice
  import ItemsService

  const Conditions: seq<string> := ["new", "like-new", "good", "fair", "poor"]
  const DefaultCondition := "good"

  /** The form's text fields, as typed. */
  datatype ItemForm = ItemForm(
    title: string,
    description: string,
    category: string,
    condition: string,
    pricePerDay: string,
    pricePerWeek: string,
    pricePerMonth: string,
    deposit: string,
    city: string,
    address: string)

  /** The form as the screen opens: every field empty, condition "good". */
  function EmptyForm(): (f: ItemForm)
    ensures f.condition == DefaultCondition && f.condition in Conditions
    ensures f.title == f.description == f.category == f.pricePerDay == f.city == ""
    ensures f.pricePerWeek == f.pricePerMonth == f.deposit == f.address == ""
  {
    ItemForm("", "", "", DefaultCondition, "", "", "", "", "", "")
  }

  const TitleRequired := "Title is required"
  const DescriptionRequired := "Description is required"
  const CategoryRequired := "Category is required"
  const PriceRequired := "Valid price per day is required"
  const CityRequired := "City is required"

  /** `validateForm`: the first rule the form breaks, in the order title,
      description, category, price per day, city; `None` when it breaks none. */
  function ValidateForm(f: ItemForm, numeric: iset<string>): (r: Option<string>)
    ensures r.None? <==> !AllSpace(f.title) && !AllSpace(f.description) && f.category != ""
                         && !AllSpace(f.pricePerDay) && f.pricePerDay in numeric && !AllSpace(f.city)
    ensures r.Some? ==> r.value in [TitleRequired, DescriptionRequired, CategoryRequired, PriceRequired, CityRequired]
  {
    TrimEmptyIff(f.title);
    TrimEmptyIff(f.description);
    TrimEmptyIff(f.pricePerDay);
    TrimEmptyIff(f.city);
    if Trim(f.title) == "" then Some(TitleRequired)
    else if Trim(f.description) == "" then Some(DescriptionRequired)
    else if f.category == "" then Some(CategoryRequired)
    else if Trim(f.pricePerDay) == "" || f.pricePerDay !in numeric then Some(PriceRequired)
    else if Trim(f.city) == "" then Some(CityRequired)
    else None
  }

  /** One validation rule: whether the form passes it, and its message. */
  datatype Rule = Rule(passes: bool, message: string)

  /** The rules as a list, in the order they are checked. */
  function Rules(f: ItemForm, numeric: iset<string>): seq<Rule> {
    [ Rule(Trim(f.title) != "", TitleRequired),
      Rule(Trim(f.description) != "", DescriptionRequired),
      Rule(f.category != "", CategoryRequired),
      Rule(Trim(f.pricePerDay) != "" && f.pricePerDay in numeric, PriceRequired),
      Rule(Trim(f.city) != "", CityRequired) ]
  }

  /** The message of the first failing rule, if any. */
  function FirstFailure(rules: seq<Rule>): (r: Option<string>)
    ensures r.None? <==> forall i :: 0 <= i < |rules| ==> rules[i].passes
    ensures r.Some? ==> exists i :: 0 <= i < |rules| && !rules[i].passes && r.value == rules[i].message
                                     && forall k :: 0 <= k < i ==> rules[k].passes
    decreases |rules|
  {
    if rules == [] then None
    else if !rules[0].passes then Some(rules[0].message)
    else
      var r := FirstFailure(rules[1..]);
      if r.Some? then
        var i :| 0 <= i < |rules[1..]| && !rules[1..][i].passes && r.value == rules[1..][i].message
                 && forall k :: 0 <= k < i ==> rules[1..][k].passes;
        assert forall k :: 0 <= k < i + 1 ==> rules[k].passes by {
          forall k | 0 <= k < i + 1 ensures rules[k].passes {
            if k > 0 { assert rules[k] == rules[1..][k - 1]; }
          }
        }
        r
      else r
  }

  /** The validation chain reports exactly the first failing rule of the list:
      only one message is ever shown, and a later rule speaks only when every
      earlier one passed. */
  lemma ValidateIsFirstFailure(f: ItemForm, numeric: iset<string>)
    ensures ValidateForm(f, numeric) == FirstFailure(Rules(f, numeric))
  {
    var rules := Rules(f, numeric);
    FirstFailureUnrolled(rules[0], rules[1], rules[2], rules[3], rules[4]);
  }

  /** Five rules checked in turn. */
  lemma FirstFailureUnrolled(a: Rule, b: Rule, c: Rule, d: Rule, e: Rule)
    ensures FirstFailure([a, b, c, d, e])
      == if !a.passes then Some(a.message) else if !b.passes then Some(b.message)
         else if !c.passes then Some(c.message) else if !d.passes then Some(d.message)
         else if !e.passes then Some(e.message) else None
  {
    assert [e][1..] == [];
    assert FirstFailure([e]) == if !e.passes then Some(e.message) else None;
    assert [d, e][1..] == [e];
    assert FirstFailure([d, e]) == if !d.passes then Some(d.message) else FirstFailure([e]);
    assert [c, d, e][1..] == [d, e];
    assert FirstFailure([c, d, e]) == if !c.passes then Some(c.message) else FirstFailure([d, e]);
    assert [b, c, d, e][1..] == [c, d, e];
    assert FirstFailure([b, c, d, e]) == if !b.passes then Some(b.message) else FirstFailure([c, d, e]);
    assert [a, b, c, d, e][1..] == [b, c, d, e];
  }

  /** A title, description or city of blanks is rejected with its own message
      once the earlier fields are fine; a negative price passes when it reads as
      a number. */
  lemma BlankFieldsRejected(f: ItemForm, numeric: iset<string>)
    ensures AllSpace(f.title) ==> ValidateForm(f, numeric) == Some(TitleRequired)
    ensures !AllSpace(f.title) && AllSpace(f.description) ==> ValidateForm(f, numeric) == Some(DescriptionRequired)
    ensures ValidateForm(f, numeric) == Some(CityRequired) <==>
      !AllSpace(f.title) && !AllSpace(f.description) && f.category != ""
      && !AllSpace(f.pricePerDay) && f.pricePerDay in numeric && AllSpace(f.city)
    ensures !AllSpace(f.title) && !AllSpace(f.description) && f.category != "" && !AllSpace(f.city) && "-5" in numeric
            ==> ValidateForm(f.(pricePerDay := "-5"), numeric) == None
  {
    assert !IsSpace("-5"[0]);
    TrimEmptyIff(f.title);
    TrimEmptyIff(f.description);
    TrimEmptyIff(f.pricePerDay);
    TrimEmptyIff(f.city);
  }

  /** `itemData`: the text fields trimmed (category and condition are chosen
      from lists, so they are sent as they are), the day price as a number, the
      week and month prices only when typed, and a deposit that is the literal
      0, rather than `Number` of a text, exactly when left empty (a typed "0"
      is sent as `Number("0")`, which is 0 as well). */
  function Payload(f: ItemForm): (d: ItemData)
    ensures d.pricePerWeek.None? <==> f.pricePerWeek == ""
    ensures d.pricePerMonth.None? <==> f.pricePerMonth == ""
    ensures d.deposit == Literal(0) <==> f.deposit == ""
    ensures d.category == f.category && d.condition == f.condition
    ensures d.title == Trim(f.title) && d.description == Trim(f.description)
    ensures d.location == Location(Trim(f.city), Trim(f.address))
    ensures d.pricePerDay == NumberFrom(f.pricePerDay)
    ensures f.pricePerWeek != "" ==> d.pricePerWeek == Some(NumberFrom(f.pricePerWeek))
    ensures f.pricePerMonth != "" ==> d.pricePerMonth == Some(NumberFrom(f.pricePerMonth))
    ensures f.deposit != "" ==> d.deposit == NumberFrom(f.deposit)
  {
    ItemData(
      Trim(f.title),
      Trim(f.description),
      f.category,
      f.condition,
      NumberFrom(f.pricePerDay),
      if f.pricePerWeek != "" then Some(NumberFrom(f.pricePerWeek)) else None,
      if f.pricePerMonth != "" then Some(NumberFrom(f.pricePerMonth)) else None,
      if f.deposit != "" then NumberFrom(f.deposit) else Literal(0),
      Location(Trim(f.city), Trim(f.address)))
  }

  /** The sent text fields start and end with no blank, and re-entering them
      in the form yields the same payload. */
  lemma PayloadIsNormalised(f: ItemForm)
    ensures var d := Payload(f);
      && (d.title == [] || (!IsSpace(d.title[0]) && !IsSpace(d.title[|d.title| - 1])))
      && (d.description == [] || (!IsSpace(d.description[0]) && !IsSpace(d.description[|d.description| - 1])))
      && (d.location.city == [] || (!IsSpace(d.location.city[0]) && !IsSpace(d.location.city[|d.location.city| - 1])))
      && (d.location.address == [] || (!IsSpace(d.location.address[0]) && !IsSpace(d.location.address[|d.location.address| - 1])))
      && Payload(f.(title := d.title, description := d.description, city := d.location.city, address := d.location.address)) == d
  {
    TrimIdempotent(f.title);
    TrimIdempotent(f.description);
    TrimIdempotent(f.city);
    TrimIdempotent(f.address);
  }

  // ----- submitting -------------------------------------------------------------

  const CreatedMessage := "Item created successfully!"

  datatype Outcome = Outcome(store: ItemsState, sent: seq<Request>, dispatched: seq<Action>, alert: Option<string>)

  /** The submit sequence once the form has been judged: `verdict` is the
      validation message, if any, and `data` the payload built from the form. */
  function Submit(ep: ItemsService.Endpoints, s: ItemsState, verdict: Option<string>, data: ItemData, reply: Reply<ItemResponse>): (r: Outcome)
    ensures r.store == ReduceAll(s, r.dispatched)
    ensures r.sent == [] <==> verdict.Some?
    ensures r.sent == [] ==> r.dispatched == [Error(verdict)] && r.alert == None
    ensures r.sent != [] ==> r.sent == [ItemsService.CreateItemRequest(ep, data)] && !r.store.loading
    ensures r.sent != [] && reply.Replied? ==> r.store.error == None && r.alert == Some(CreatedMessage)
    ensures r.sent != [] && reply.Replied? ==> r.dispatched == [Loading(true), Error(None), Loading(false)]
    ensures r.sent != [] && reply.Failed? ==> r.store.error == Some(ItemsService.HandleError(reply.error).message) && r.alert == None
    ensures SameData(r.store, s)
  {
    if verdict.Some? then
      assert ReduceAll(s, [Error(verdict)]) == SetError(s, verdict);
      Outcome(SetError(s, verdict), [], [Error(verdict)], None)
    else
      var req := ItemsService.CreateItemRequest(ep, data);
      var s1 := SetLoading(s, true);
      var s2 := SetError(s1, None);
      if reply.Replied? then
        var store := SetLoading(s2, false);
        assert ReduceAll(s2, [Loading(false)]) == store;
        assert ReduceAll(s1, [Error(None), Loading(false)]) == store;
        Outcome(store, [req], [Loading(true), Error(None), Loading(false)], Some(CreatedMessage))
      else
        var failure := Error(Some(ItemsService.HandleError(reply.error).message));
        var s3 := Reduce(s2, failure);
        var store := SetLoading(s3, false);
        assert ReduceAll(s3, [Loading(false)]) == store;
        assert ReduceAll(s2, [failure, Loading(false)]) == store;
        assert ReduceAll(s1, [Error(None), failure, Loading(false)]) == store;
        Outcome(store, [req], [Loading(true), Error(None), failure, Loading(false)], None)
  }

  /** `handleSubmit`: an invalid form records its message in the store and sends
      nothing. A valid one raises the loading flag, clears the error and POSTs
      the payload; success only raises the confirmation alert (the new listing is
      not put into the store), failure records the message; the loading flag is
      lowered either way. */
  function HandleSubmit(ep: ItemsService.Endpoints, s: ItemsState, f: ItemForm, numeric: iset<string>, reply: Reply<ItemResponse>): (r: Outcome)
    ensures r.store == ReduceAll(s, r.dispatched)
    ensures r.sent == [] <==> ValidateForm(f, numeric).Some?
    ensures r.sent == [] ==> r.dispatched == [Error(ValidateForm(f, numeric))] && r.alert == None
    ensures r.sent != [] ==> r.sent == [ItemsService.CreateItemRequest(ep, Payload(f))] && !r.store.loading
    ensures r.sent != [] && reply.Replied? ==> r.store.error == None && r.alert == Some(CreatedMessage)
    ensures r.sent != [] && reply.Replied? ==> r.dispatched == [Loading(true), Error(None), Loading(false)]
    ensures r.sent != [] && reply.Failed? ==> r.store.error == Some(ItemsService.HandleError(reply.error).message) && r.alert == None
    ensures SameData(r.store, s)
  {
    Submit(ep, s, ValidateForm(f, numeric), Payload(f), reply)
  }

  /** Submitting a form that fails validation, whatever the server would have
      said, sends nothing and changes no listing: only the error is set. */
  lemma InvalidFormSendsNothing(ep: ItemsService.Endpoints, s: ItemsState, f: ItemForm, numeric: iset<string>, reply: Reply<ItemResponse>)
    requires AllSpace(f.title) || AllSpace(f.city) || f.category == ""
    ensures HandleSubmit(ep, s, f, numeric, reply).sent == []
    ensures HandleSubmit(ep, s, f, numeric, reply).store == s.(error := ValidateForm(f, numeric))
  {
    TrimEmptyIff(f.title);
    TrimEmptyIff(f.city);
  }
}

=== FILE: auth_screens.dfy ===
/** The login and registration forms: what each validates, in which order, how
    it normalises the fields it sends, and what it dispatches to the session
    store. The session store's own reducer is not part of this model; the
    screens are described by the actions they dispatch. */
module AuthScreens {
  import opened Wrappers
  import opened Text
  import opened Domain
  import opened Transport
  import opened Session
  import AuthService

  /** The session store actions the two screens dispatch. */
  datatype AuthAction =
    | AuthLoading(flag: bool)
    | AuthError(message: Option<string>)
    | UserSet(user: Option<Profile>)
    | TokenSet(token: Option<string>)

  /** A submit: the service call it made (none when the form was rejected), the
      storage afterwards, and the actions dispatched. */
  datatype Outcome = Outcome(call: Option<AuthService.AuthCall>, storage: Storage, dispatched: seq<AuthAction>)

  const CredentialsRequired := "Email and password are required"
  const FieldsRequired := "All fields are required"
  const PasswordTooShort := "Password must be at least 6 characters"
  const MinPasswordLength := 6

  /** `email.trim().toLowerCase()`. */
  function NormaliseEmail(email: string): string {
    Lower(Trim(email))
  }

  /** Normalising an email twice is normalising it once, and a normalised email
      is blank exactly when the typed one was. */
  lemma NormaliseEmailIdempotent(email: string)
    ensures NormaliseEmail(NormaliseEmail(email)) == NormaliseEmail(email)
    ensures AllSpace(NormaliseEmail(email)) <==> AllSpace(email)
  {
    var t := Trim(email);
    var l := Lower(t);
    LowerKeepsTrimmed(t);
    LowerNormalises(t);
    assert NormaliseEmail(l) == l;
    TrimEmptyIff(email);
    TrimEmptyIff(l);
  }

  /** The dispatches around a service call: loading on, error cleared, then
      user and token from the answer or the classified message, loading off. */
  function Around(result: Result<AuthResponse, ClassifiedError>): (acts: seq<AuthAction>)
    ensures |acts| >= 4 && acts[0] == AuthLoading(true) && acts[1] == AuthError(None) && acts[|acts| - 1] == AuthLoading(false)
  {
    match result
    case Success(resp) => [AuthLoading(true), AuthError(None), UserSet(resp.user), TokenSet(resp.token), AuthLoading(false)]
    case Failure(e) => [AuthLoading(true), AuthError(None), AuthError(Some(e.message)), AuthLoading(false)]
  }

  /** A submit once the form has been judged: a rejection is dispatched as the
      error and nothing is called; otherwise the service call is made and its
      outcome dispatched between raising and lowering the loading flag. */
  function Conclude(st: Storage, rejection: Option<string>, call: AuthService.AuthCall): (r: Outcome)
    ensures r.call.None? <==> rejection.Some?
    ensures rejection.Some? ==> r.dispatched == [AuthError(rejection)] && r.storage == st
    ensures rejection.None? ==> r.call == Some(call) && r.storage == call.storage && r.dispatched == Around(call.result)
  {
    if rejection.Some? then Outcome(None, st, [AuthError(rejection)])
    else Outcome(Some(call), call.storage, Around(call.result))
  }

  // ----- login --------------------------------------------------------------------

  /** `!email.trim() || !password.trim()`: the login form's only check. */
  function LoginRejection(email: string, password: string): (r: Option<string>)
    ensures r.Some? <==> AllSpace(email) || AllSpace(password)
    ensures r.Some? ==> r.value == CredentialsRequired
  {
    TrimEmptyIff(email);
    TrimEmptyIff(password);
    if Trim(email) == "" || Trim(password) == "" then Some(CredentialsRequired) else None
  }

  /** `handleLogin`: a blank email or password is rejected with one message and
      no call; otherwise log in with the email trimmed and lower-cased and the
      password exactly as typed, then set user and token from the answer, or
      the error on failure. */
  function HandleLogin(st: Storage, email: string, password: string, reply: Reply<AuthResponse>): (r: Outcome)
    ensures r.call.None? <==> AllSpace(email) || AllSpace(password)
    ensures r.call.None? ==> r.dispatched == [AuthError(Some(CredentialsRequired))] && r.storage == st
    ensures r.call.Some? ==> r.call.value == AuthService.Login(st, NormaliseEmail(email), password, reply)
    ensures r.call.Some? ==> r.storage == r.call.value.storage && r.dispatched == Around(r.call.value.result)
  {
    Conclude(st, LoginRejection(email, password), AuthService.Login(st, NormaliseEmail(email), password, reply))
  }

  /** A failed login dispatches no user and no token, only the error, and leaves
      the stored session alone. */
  lemma FailedLoginSetsOnlyError(st: Storage, email: string, password: string, e: RequestError)
    requires !AllSpace(email) && !AllSpace(password)
    ensures var r := HandleLogin(st, email, password, Failed(e));
      && r.storage == st
      && r.dispatched == [AuthLoading(true), AuthError(None), AuthError(Some(AuthService.HandleError(e).message)), AuthLoading(false)]
  {
    var call := AuthService.Login(st, NormaliseEmail(email), password, Failed(e));
    assert call.result == Failure(AuthService.HandleError(e)) && call.storage == st;
  }

  /** The email is sent normalised and the password verbatim: typing the email
      already normalised sends the same request, and surrounding blanks in the
      password are kept. */
  lemma LoginSendsNormalisedEmail(st: Storage, email: string, password: string, reply: Reply<AuthResponse>)
    requires !AllSpace(email) && !AllSpace(password)
    ensures HandleLogin(st, NormaliseEmail(email), password, reply) == HandleLogin(st, email, password, reply)
    ensures HandleLogin(st, email, password, reply).call.value.request.body
      == CredentialsBody(NormaliseEmail(email), password)
  {
    NormaliseEmailIdempotent(email);
  }

  // ----- registration -------------------------------------------------------------

  /** The registration form's fields, as typed. */
  datatype RegisterForm = RegisterForm(
    firstName: string,
    lastName: string,
    email: string,
    password: string,
    phone: string,
    street: string,
    city: string)

  /** The five required fields are all non-blank. */
  predicate RequiredFilled(f: RegisterForm) {
    !AllSpace(f.firstName) && !AllSpace(f.lastName) && !AllSpace(f.email) && !AllSpace(f.password) && !AllSpace(f.phone)
  }

  /** `handleRegister`'s two checks: the required fields first (street and city
      are optional), then the `.length` of the password as typed, untrimmed,
      which counts UTF-16 code units. */
  function ValidateRegistration(f: RegisterForm): (r: Option<string>)
    ensures r == Some(FieldsRequired) <==> !RequiredFilled(f)
    ensures r == Some(PasswordTooShort) <==> RequiredFilled(f) && Utf16Length(f.password) < MinPasswordLength
    ensures r == None <==> RequiredFilled(f) && Utf16Length(f.password) >= MinPasswordLength
  {
    TrimEmptyIff(f.firstName);
    TrimEmptyIff(f.lastName);
    TrimEmptyIff(f.email);
    TrimEmptyIff(f.password);
    TrimEmptyIff(f.phone);
    if Trim(f.firstName) == "" || Trim(f.lastName) == "" || Trim(f.email) == "" || Trim(f.password) == "" || Trim(f.phone) == "" then
      Some(FieldsRequired)
    else if Utf16Length(f.password) < MinPasswordLength then Some(PasswordTooShort)
    else None
  }

  /** The registration payload: every field trimmed, the email also lower-cased,
      the password exactly as typed. */
  function RegistrationPayload(f: RegisterForm): (d: RegisterData)
    ensures d.password == f.password && d.email == NormaliseEmail(f.email)
    ensures d.firstName == Trim(f.firstName) && d.lastName == Trim(f.lastName) && d.phone == Trim(f.phone)
    ensures d.address == Address(Trim(f.street), Trim(f.city))
  {
    RegisterData(Trim(f.firstName), Trim(f.lastName), NormaliseEmail(f.email), f.password, Trim(f.phone),
      Address(Trim(f.street), Trim(f.city)))
  }

  /** Entering the payload's own fields into the form again yields the same
      payload and passes validation again: the normalisation is stable. */
  lemma RegistrationPayloadStable(f: RegisterForm)
    requires ValidateRegistration(f) == None
    ensures var d := RegistrationPayload(f);
      var g := RegisterForm(d.firstName, d.lastName, d.email, d.password, d.phone, d.address.street, d.address.city);
      RegistrationPayload(g) == d && ValidateRegistration(g) == None
  {
    TrimKeepsFilled(f.firstName);
    TrimKeepsFilled(f.lastName);
    TrimKeepsFilled(f.phone);
    TrimIdempotent(f.street);
    TrimIdempotent(f.city);
    NormaliseEmailIdempotent(f.email);
  }

  /** A field that is not blank stays non-blank, and unchanged, when trimmed again. */
  lemma TrimKeepsFilled(x: string)
    requires !AllSpace(x)
    ensures !AllSpace(Trim(x)) && Trim(Trim(x)) == Trim(x)
  {
    TrimIdempotent(x);
    TrimEmptyIff(x);
    TrimEmptyIff(Trim(x));
  }

  /** `handleRegister`: a rejected form dispatches its one message and calls
      nothing; otherwise register with the normalised payload, then set user and
      token from the answer, or the error on failure. */
  function HandleRegister(st: Storage, f: RegisterForm, reply: Reply<AuthResponse>): (r: Outcome)
    ensures r.call.None? <==> ValidateRegistration(f).Some?
    ensures r.call.None? ==> r.dispatched == [AuthError(ValidateRegistration(f))] && r.storage == st
    ensures r.call.Some? ==> r.call.value == AuthService.Register(st, RegistrationPayload(f), reply)
    ensures r.call.Some? ==> r.storage == r.call.value.storage && r.dispatched == Around(r.call.value.result)
  {
    Conclude(st, ValidateRegistration(f), AuthService.Register(st, RegistrationPayload(f), reply))
  }

  /** The required-fields check comes first: a form with a blank name and a short
      password reports the missing fields, not the password. */
  lemma RequiredCheckedBeforeLength(st: Storage, reply: Reply<AuthResponse>)
    ensures var f := RegisterForm(" ", "Doe", "a@b.c", "abc", "0600", "", "");
      HandleRegister(st, f, reply).dispatched == [AuthError(Some(FieldsRequired))]
  {
    var f := RegisterForm(" ", "Doe", "a@b.c", "abc", "0600", "", "");
    assert IsSpace(f.firstName[0]);
  }

  /** The length counts the password as typed: two leading blanks make a
      four-letter password long enough, and they are sent along. */
  lemma UntrimmedPasswordLength(st: Storage, reply: Reply<AuthResponse>)
    ensures var f := RegisterForm("Ann", "Doe", "a@b.c", "  abcd", "0600", "", "");
      && ValidateRegistration(f) == None
      && ValidateRegistration(f.(password := "abcde")) == Some(PasswordTooShort)
      && HandleRegister(st, f, reply).call.value.request.body == RegisterBody(RegistrationPayload(f))
      && RegistrationPayload(f).password == "  abcd"
  {
    var f := RegisterForm("Ann", "Doe", "a@b.c", "  abcd", "0600", "", "");
    PaddedPasswordValidation(f);
    ShortPasswordValidation(f.(password := "abcde"));
    assert HandleRegister(st, f, reply).call == Some(AuthService.Register(st, RegistrationPayload(f), reply));
  }

  /** The example's padded password is accepted. */
  lemma PaddedPasswordValidation(f: RegisterForm)
    requires f == RegisterForm("Ann", "Doe", "a@b.c", "  abcd", "0600", "", "")
    ensures ValidateRegistration(f) == None
  {
    assert RequiredFilled(f) by {
      assert !IsSpace(f.firstName[0]) && !IsSpace(f.lastName[0]) && !IsSpace(f.email[0]);
      assert !IsSpace(f.password[2]) && !IsSpace(f.phone[0]);
    }
    PlainLength(f.password);
  }

  /** The example's five-letter password is too short. */
  lemma ShortPasswordValidation(f: RegisterForm)
    requires f == RegisterForm("Ann", "Doe", "a@b.c", "abcde", "0600", "", "")
    ensures ValidateRegistration(f) == Some(PasswordTooShort)
  {
    assert RequiredFilled(f) by {
      assert !IsSpace(f.firstName[0]) && !IsSpace(f.lastName[0]) && !IsSpace(f.email[0]);
      assert !IsSpace(f.password[0]) && !IsSpace(f.phone[0]);
    }
    PlainLength(f.password);
  }

  /** A password of ASCII characters is as long in UTF-16 units as it has characters. */
  lemma PlainLength(p: string)
    requires forall i :: 0 <= i < |p| ==> p[i] < '\U{0080}'
    ensures Utf16Length(p) == |p|
  {
    Utf16LengthIsCount(p);
  }

  /** The length is measured in UTF-16 code units: a password of four
      characters, two of them emoji, is six units long and is accepted and
      sent, while four plain letters are too short. */
  lemma AstralPasswordAccepted(st: Storage, reply: Reply<AuthResponse>)
    ensures var f := RegisterForm("Ann", "Doe", "a@b.c", "ab\U{1F600}\U{1F600}", "0600", "", "");
      && |f.password| == 4 && Utf16Length(f.password) == 6
      && ValidateRegistration(f) == None
      && HandleRegister(st, f, reply).call.Some?
      && ValidateRegistration(f.(password := "abcd")) == Some(PasswordTooShort)
  {
    var f := RegisterForm("Ann", "Doe", "a@b.c", "ab\U{1F600}\U{1F600}", "0600", "", "");
    var p := f.password;
    assert Utf16Length(p[3..]) == 2 by { assert p[3..][1..] == []; }
    assert Utf16Length(p[2..]) == 4 by { assert p[2..][1..] == p[3..]; }
    assert Utf16Length(p[1..]) == 5 by { assert p[1..][1..] == p[2..]; }
    assert Utf16Length(p) == 6;
    assert RequiredFilled(f) by {
      assert !IsSpace(f.firstName[0]) && !IsSpace(f.lastName[0]) && !IsSpace(f.email[0]);
      assert !IsSpace(p[0]) && !IsSpace(f.phone[0]);
    }
    assert ValidateRegistration(f) == None;
    var g := f.(password := "abcd");
    assert RequiredFilled(g) by {
      assert !IsSpace(g.password[0]);
    }
    assert Utf16Length(g.password) == 4 by {
      Utf16LengthIsCount(g.password);
    }
  }
}

=== FILE: auth_service.dfy ===
/** `authService`: login and registration (which persist the session only when
    a token came back), profile read and update, logout, and the auth error
    classifier. */
module AuthService {
  import opened Wrappers
  import opened Js
  import opened Domain
  import opened Transport
  import opened Session
  import ItemsService

  const LoginPath := "/api/auth/login"
  const RegisterPath := "/api/auth/register"
  const ProfilePath := "/api/auth/profile"
  const UpdateProfilePath := "/api/auth/profile/update"

  /** An auth service call: the request sent, what the call returns or throws,
      and the storage afterwards. */
  datatype AuthCall = AuthCall(request: Request, result: Result<AuthResponse, ClassifiedError>, storage: Storage)

  /** The two storages agree on every key outside `ks`, and on which keys fail. */
  predicate SameOutside(a: Storage, b: Storage, ks: set<StorageKey>) {
    && a.readFailing == b.readFailing && a.writeFailing == b.writeFailing && a.removeFailing == b.removeFailing
    && forall k :: k !in ks ==> ((k in a.entries <==> k in b.entries) && (k in a.entries ==> a.entries[k] == b.entries[k]))
  }

  /** `after` is `before` with `v` stored under `k` when that write can succeed,
      and `before` unchanged there otherwise. */
  predicate WroteIfPossible(before: Storage, after: Storage, k: StorageKey, v: Stored) {
    if k in before.writeFailing then (k in after.entries <==> k in before.entries) && (k in before.entries ==> after.entries[k] == before.entries[k])
    else k in after.entries && after.entries[k] == v
  }

  // ----- error classification ----------------------------------------------------

  /** The `message` of a server error body, `undefined` when the body is missing. */
  function AuthServerMessages(r: ErrorResponse): (c: seq<Option<string>>)
    ensures |c| == 1
  {
    match r.data
    case None => [None]
    case Some(d) => [d.message]
  }

  /** `_handleError` of the auth service: like the items service, but a server
      answer is read for `message` only; `msg` is ignored. */
  function HandleError(e: RequestError): (r: ClassifiedError)
    ensures r.ServerError? <==> e.response.Some?
    ensures r.ServerError? ==> r.message == ItemsService.FirstTruthy(AuthServerMessages(e.response.value), ItemsService.ServerFallback)
    ensures r.NetworkError? ==> r.message == ItemsService.FirstTruthy([e.message], ItemsService.NetworkFallback)
    ensures r.message != ""
  {
    match e.response
    case Some(resp) =>
      var message := if resp.data.Some? then resp.data.value.message else None;
      ServerError(OrElse(message, "An error occurred"))
    case None => NetworkError(OrElse(e.message, "Network error"))
  }

  /** `try { return await call } catch (e) { throw this._handleError(e) }`. */
  function Settle<T>(reply: Reply<T>): (r: Result<T, ClassifiedError>)
    ensures reply.Replied? <==> r.Success?
    ensures reply.Replied? ==> r.value == reply.body
    ensures reply.Failed? ==> r.error == HandleError(reply.error)
  {
    match reply
    case Replied(b) => Success(b)
    case Failed(e) => Failure(HandleError(e))
  }

  // ----- session persistence -----------------------------------------------------

  /** `if (response.token) { setItem(AUTH_TOKEN, token); setItem(USER, user) }`. */
  function Persist(st: Storage, resp: AuthResponse): (r: Storage)
    ensures SameOutside(st, r, {AuthToken, UserData})
    ensures TruthyText(resp.token) ==> WroteIfPossible(st, r, AuthToken, TokenValue(resp.token.value))
    ensures TruthyText(resp.token) ==> WroteIfPossible(st, r, UserData, UserValue(resp.user))
    ensures !TruthyText(resp.token) ==> r == st
  {
    if TruthyText(resp.token) then
      var afterToken := SetItem(st, AuthToken, TokenValue(resp.token.value)).0;
      SetItem(afterToken, UserData, UserValue(resp.user)).0
    else st
  }

  /** `login(email, password)`: POST the credentials; on an answer carrying a
      truthy token, persist token and user, and return the answer; on failure
      throw the classified error with storage untouched. */
  function Login(st: Storage, email: string, password: string, reply: Reply<AuthResponse>): (c: AuthCall)
    ensures c.request == Request(Post, LoginPath, CredentialsBody(email, password))
    ensures c.result.Success? <==> reply.Replied?
    ensures reply.Replied? ==> c.result.value == reply.body && c.storage == Persist(st, reply.body)
    ensures reply.Failed? ==> c.result.error == HandleError(reply.error) && c.storage == st
  {
    var req := Request(Post, LoginPath, CredentialsBody(email, password));
    match reply
    case Replied(resp) => AuthCall(req, Success(resp), Persist(st, resp))
    case Failed(e) => AuthCall(req, Failure(HandleError(e)), st)
  }

  /** `register(userData)`: as `login`, with the registration payload. */
  function Register(st: Storage, data: RegisterData, reply: Reply<AuthResponse>): (c: AuthCall)
    ensures c.request == Request(Post, RegisterPath, RegisterBody(data))
    ensures c.result.Success? <==> reply.Replied?
    ensures reply.Replied? ==> c.result.value == reply.body && c.storage == Persist(st, reply.body)
    ensures reply.Failed? ==> c.result.error == HandleError(reply.error) && c.storage == st
  {
    var req := Request(Post, RegisterPath, RegisterBody(data));
    match reply
    case Replied(resp) => AuthCall(req, Success(resp), Persist(st, resp))
    case Failed(e) => AuthCall(req, Failure(HandleError(e)), st)
  }

  /** `getProfile()`: a GET of the profile path; nothing is stored. */
  function GetProfile(st: Storage, reply: Reply<AuthResponse>): (c: AuthCall)
    ensures c.request == Request(Get, ProfilePath, NoBody)
    ensures c.storage == st
    ensures c.result == Settle(reply)
  {
    AuthCall(Request(Get, ProfilePath, NoBody), Settle(reply), st)
  }

  /** `updateProfile(userData)`: PUT the profile; on success store the
      returned user under the user key, whatever the token, touching no other
      key. */
  function UpdateProfile(st: Storage, data: Profile, reply: Reply<AuthResponse>): (c: AuthCall)
    ensures c.request == Request(Put, UpdateProfilePath, ProfileBody(data))
    ensures c.result == Settle(reply)
    ensures SameOutside(st, c.storage, {UserData})
    ensures reply.Replied? ==> WroteIfPossible(st, c.storage, UserData, UserValue(reply.body.user))
    ensures reply.Failed? ==> c.storage == st
  {
    var req := Request(Put, UpdateProfilePath, ProfileBody(data));
    match reply
    case Replied(resp) => AuthCall(req, Success(resp), SetItem(st, UserData, UserValue(resp.user)).0)
    case Failed(e) => AuthCall(req, Failure(HandleError(e)), st)
  }

  /** `logout()` as written: both keys are removed where the platform allows it,
      and the result is `true` in every case, because `storage.removeItem`
      catches its own failures and never throws into logout's `catch`. */
  function Logout(st: Storage): (r: (Storage, bool))
    ensures r.1
    ensures SameOutside(st, r.0, {AuthToken, UserData})
    ensures AuthToken !in st.removeFailing ==> AuthToken !in r.0.entries
    ensures UserData !in st.removeFailing ==> UserData !in r.0.entries
  {
    var afterToken := RemoveItem(st, AuthToken).0;
    var afterUser := RemoveItem(afterToken, UserData).0;
    (afterUser, true)
  }

  /** `logout()` as its `return false` branch intends: `false` exactly when a
      removal failed, so `true` guarantees that the session is gone. */
  function LogoutChecked(st: Storage): (r: (Storage, bool))
    ensures r.1 <==> AuthToken !in st.removeFailing && UserData !in st.removeFailing
    ensures r.1 ==> AuthToken !in r.0.entries && UserData !in r.0.entries
    ensures SameOutside(st, r.0, {AuthToken, UserData})
    ensures r.0 == Logout(st).0
  {
    var (afterToken, okToken) := RemoveItem(st, AuthToken);
    var (afterUser, okUser) := RemoveItem(afterToken, UserData);
    (afterUser, okToken && okUser)
  }
}

=== FILE: availability.dfy ===
/** The availability status of a listing as the screens present it: the badge
    label (the same `getAvailabilityText` switch appears on the feed, the
    detail screen and the owner's list) and the rent button of the detail
    screen. */
module Availability {
  /** The statuses an owner can pick, in the order the detail screen offers them. */
  const Statuses: seq<string> := ["available", "rented", "unavailable"]

  /** `getAvailabilityText`: a known status gets its label; anything else,
      including a status the server invents, reads "Unavailable". */
  function Label(a: string): (l: string)
    ensures l == "Available" <==> a == "available"
    ensures l == "Rented" <==> a == "rented"
    ensures a != "available" && a != "rented" ==> l == "Unavailable"
  {
    if a == "available" then "Available"
    else if a == "rented" then "Rented"
    else "Unavailable"
  }

  /** The rent button is enabled exactly for an available listing. */
  predicate RentEnabled(a: string) {
    a == "available"
  }

  /** The rent button's caption. */
  function RentCaption(a: string): (c: string)
    ensures c == "Rent Now" <==> RentEnabled(a)
    ensures !RentEnabled(a) ==> c == "Not Available"
  {
    if RentEnabled(a) then "Rent Now" else "Not Available"
  }

  /** The three statuses get three different labels, and a listing can be
      rented from the detail screen exactly when its badge reads "Available". */
  lemma LabelsDistinguishStatuses(a: string)
    ensures forall i, j :: 0 <= i < j < |Statuses| ==> Label(Statuses[i]) != Label(Statuses[j])
    ensures RentEnabled(a) <==> Label(a) == "Available"
    ensures a !in Statuses ==> Label(a) == Label("unavailable")
  {
  }
}

=== FILE: domain.dfy ===
/** The records the client exchanges with the backend: listings, the create
    payload, user profiles and the registration payload. */
module Domain {
  import opened Wrappers

  /** A rentable item as the server returns it. `id` is the server's `_id`;
      availability is kept as the raw string because the screens compare it
      with string literals and treat every other value as "unavailable". */
  datatype Listing = Listing(
    id: string,
    ownerId: string,
    title: string,
    description: string,
    category: string,
    condition: string,
    pricePerDay: int,
    deposit: int,
    city: string,
    address: string,
    availability: string,
    views: nat)

  /** A number produced by `Number(text)`; the conversion itself is left
      symbolic, a literal is a constant the client writes itself. */
  datatype NumberValue = NumberFrom(text: string) | Literal(n: int)

  datatype Location = Location(city: string, address: string)

  /** The body of a create request (`itemData` in the add-item screen). An
      absent week or month price is a key sent as `undefined`. */
  datatype ItemData = ItemData(
    title: string,
    description: string,
    category: string,
    condition: string,
    pricePerDay: NumberValue,
    pricePerWeek: Option<NumberValue>,
    pricePerMonth: Option<NumberValue>,
    deposit: NumberValue,
    location: Location)

  /** The signed-in user as the auth service returns it. */
  datatype Profile = Profile(id: Option<string>, email: string, firstName: string, lastName: string)

  datatype Address = Address(street: string, city: string)

  /** The body of a registration request. */
  datatype RegisterData = RegisterData(
    firstName: string,
    lastName: string,
    email: string,
    password: string,
    phone: string,
    address: Address)
}

=== FILE: home_screen.dfy ===
/** The browse feed. Unlike the other screens it keeps its list in local
    component state rather than in the store: the listings, the loading,
    refreshing and error flags, the selected category, the search text, the
    page and whether more pages exist. */
module HomeScreen {
  import opened Wrappers
  import opened Js
  import opened Text
  import opened Domain
  import opened Transport
  import opened Query
  import ItemsSlice
  import ItemsService
  import QueryLemmas

  /** The category chips, "all" first. */
  const Categories: seq<string> := ["all", "vehicles", "tools", "electronics", "sports", "furniture", "clothing", "books", "other"]
  const AllCategories := "all"
  const FeedLimit := 10

  datatype HomeState = HomeState(
    items: seq<Listing>,
    loading: bool,
    refreshing: bool,
    error: Option<string>,
    selectedCategory: string,
    searchQuery: string,
    page: int,
    hasMore: bool)

  /** The state the screen mounts with: an empty list, loading, page 1, and more
      pages assumed. */
  function InitialHome(): (s: HomeState)
    ensures s.items == [] && s.loading && !s.refreshing && s.error == None
    ensures s.selectedCategory == AllCategories && s.searchQuery == "" && s.page == 1 && s.hasMore
  {
    HomeState([], true, false, None, AllCategories, "", 1, true)
  }

  /** The `params` object `fetchItems` builds: the page (1 on a refresh), the
      fixed limit, the category unless "all", and the trimmed search text when
      it is not blank. */
  function FeedQuery(s: HomeState, isRefresh: bool): ItemQuery {
    var page := if isRefresh then 1 else s.page;
    var category := if s.selectedCategory != AllCategories then Str(s.selectedCategory) else Undefined;
    var search := if Trim(s.searchQuery) != "" then Str(Trim(s.searchQuery)) else Undefined;
    NoQuery.(page := Num(page), limit := Num(FeedLimit), category := category, search := search)
  }

  /** The parameters a feed fetch sends: `page` is 1 on a refresh and the
      screen's page otherwise, `limit` is 10, `category` is present exactly when
      a category other than "all" is selected, `search` exactly when the search
      text is not blank, and then trimmed; no other filter is ever sent. */
  lemma FeedRequestParams(s: HomeState, isRefresh: bool)
    requires s.selectedCategory in Categories
    ensures var ps := QueryParams(FeedQuery(s, isRefresh));
      && Lookup(ps, "page") == Some(IntToString(if isRefresh then 1 else s.page))
      && Lookup(ps, "limit") == Some(IntToString(FeedLimit))
      && Lookup(ps, "category") == (if s.selectedCategory != AllCategories then Some(s.selectedCategory) else None)
      && Lookup(ps, "search") == (if !AllSpace(s.searchQuery) then Some(Trim(s.searchQuery)) else None)
      && Lookup(ps, "city") == None && Lookup(ps, "minPrice") == None
      && Lookup(ps, "maxPrice") == None && Lookup(ps, "availability") == None
  {
    var q := FeedQuery(s, isRefresh);
    var ps := QueryParams(q);
    assert Lookup(ps, "page") == Some(ps[0].1);
    assert Lookup(ps, "limit") == Some(ps[1].1) by {
      assert ps[1..][0] == ps[1];
    }
    TrimEmptyIff(s.searchQuery);
    assert OptionalValues(q) == [q.category, Undefined, Undefined, Undefined, q.search, Undefined];
    QueryLemmas.OptionalKeyPresentIffTruthy(q, 0);
    QueryLemmas.OptionalKeyPresentIffTruthy(q, 1);
    QueryLemmas.OptionalKeyPresentIffTruthy(q, 2);
    QueryLemmas.OptionalKeyPresentIffTruthy(q, 3);
    QueryLemmas.OptionalKeyPresentIffTruthy(q, 4);
    QueryLemmas.OptionalKeyPresentIffTruthy(q, 5);
  }

  /** `setItems(response.items || [])` or `setItems(prev => [...prev, ...])`:
      replace the list, or append the page after it in order. */
  function MergeFeed(shown: seq<Listing>, incoming: Option<seq<Listing>>, replace: bool): (r: seq<Listing>)
    ensures replace ==> r == incoming.GetOr([])
    ensures !replace ==> |r| == |shown| + |incoming.GetOr([])|
    ensures !replace ==> r[..|shown|] == shown && r[|shown|..] == incoming.GetOr([])
  {
    if replace then incoming.GetOr([]) else shown + incoming.GetOr([])
  }

  /** The screen's merge is the store's `setItems` / `appendItems` on the list:
      the feed keeps its own copy but follows the same rule. */
  lemma MergeMatchesSlice(st: ItemsSlice.ItemsState, resp: PageResponse, replace: bool)
    ensures var p := ItemsSlice.PagePayload(resp.items.GetOr([]), resp.totalPages, resp.currentPage, resp.totalItems);
      MergeFeed(st.items, resp.items, replace)
      == (if replace then ItemsSlice.SetItems(st, p).items else ItemsSlice.AppendItems(st, p).items)
  {
  }

  /** `response.currentPage < response.totalPages`: a comparison with a missing
      counter is false in JavaScript. */
  predicate HasMore(resp: PageResponse) {
    resp.currentPage.Some? && resp.totalPages.Some? && resp.currentPage.value < resp.totalPages.value
  }

  datatype Fetch = Fetch(state: HomeState, sent: Request)

  /** `fetchItems(isRefresh)`: GET the feed; on an answer merge its listings
      (replacing on a refresh or on page 1) and set `hasMore` from its counters;
      on failure record the message and keep the list and `hasMore`; a refresh
      also resets the page to 1. Either way both spinners stop. */
  function FetchItems(ep: ItemsService.Endpoints, s: HomeState, isRefresh: bool, reply: Reply<PageResponse>): (r: Fetch)
    ensures r.sent == ItemsService.GetAllItemsRequest(ep, FeedQuery(s, isRefresh))
    ensures reply.Replied? ==> r.state.items == MergeFeed(s.items, reply.body.items, isRefresh || s.page == 1)
    ensures reply.Replied? ==> r.state.error == None && (r.state.hasMore <==> HasMore(reply.body))
    ensures reply.Failed? ==> r.state.items == s.items && r.state.hasMore == s.hasMore
    ensures reply.Failed? ==> r.state.error == Some(ItemsService.HandleError(reply.error).message)
    ensures r.state.page == (if isRefresh then 1 else s.page)
    ensures !r.state.loading && !r.state.refreshing
    ensures r.state.selectedCategory == s.selectedCategory && r.state.searchQuery == s.searchQuery
  {
    var req := ItemsService.GetAllItemsRequest(ep, FeedQuery(s, isRefresh));
    var started := s.(page := if isRefresh then 1 else s.page, error := None);
    var settled := match reply
      case Replied(resp) => started.(items := MergeFeed(s.items, resp.items, isRefresh || s.page == 1), hasMore := HasMore(resp))
      case Failed(e) => started.(error := Some(ItemsService.HandleError(e).message));
    Fetch(settled.(loading := false, refreshing := false), req)
  }

  /** `handleRefresh`: a fetch from page 1 that replaces the list. */
  function HandleRefresh(ep: ItemsService.Endpoints, s: HomeState, reply: Reply<PageResponse>): (r: Fetch)
    ensures r.sent == ItemsService.GetAllItemsRequest(ep, FeedQuery(s, true)) && r.state.page == 1
    ensures reply.Replied? ==> r.state.items == reply.body.items.GetOr([])
    ensures reply.Failed? ==> r.state.items == s.items
  {
    FetchItems(ep, s, true, reply)
  }

  /** `handleSearch`: reset the page and refresh with the current search text. */
  function HandleSearch(ep: ItemsService.Endpoints, s: HomeState, reply: Reply<PageResponse>): (r: Fetch)
    ensures r.sent == ItemsService.GetAllItemsRequest(ep, FeedQuery(s, true)) && r.state.page == 1
    ensures reply.Replied? ==> r.state.items == reply.body.items.GetOr([])
    ensures reply.Failed? ==> r.state.items == s.items
  {
    FetchItems(ep, s.(page := 1), true, reply)
  }

  /** `handleCategorySelect(id)`: select the category and go back to page 1. */
  function SelectCategory(s: HomeState, id: string): (r: HomeState)
    ensures r.selectedCategory == id && r.page == 1
    ensures r.(selectedCategory := s.selectedCategory, page := s.page) == s
  {
    s.(selectedCategory := id, page := 1)
  }

  /** `handleLoadMore`: advance the page by one when not loading and more pages
      exist; otherwise nothing changes. Nothing else is touched. */
  function LoadMore(s: HomeState): (r: HomeState)
    ensures r.page == s.page + 1 <==> !s.loading && s.hasMore
    ensures r.page == s.page || r.page == s.page + 1
    ensures r.(page := s.page) == s
  {
    if !s.loading && s.hasMore then s.(page := s.page + 1) else s
  }

  // ----- how the operations compose -----------------------------------------------

  /** The fetch that follows a category change asks for page 1 and replaces the
      list: listings of the previous category are never kept. */
  lemma CategoryChangeReplacesFeed(ep: ItemsService.Endpoints, s: HomeState, id: string, resp: PageResponse)
    ensures var r := FetchItems(ep, SelectCategory(s, id), false, Replied(resp));
      r.state.items == resp.items.GetOr([]) && FeedQuery(SelectCategory(s, id), false).page == Num(1)
  {
  }

  /** A fetch of the page load-more advanced to asks for the next page and
      appends its listings after the ones shown, in order. Such a fetch is what
      `LoadMoreAndFetch` issues; the screen as written never issues it
      (`MountedFetchesNeverAppend`). */
  lemma LoadMoreThenFetchAppends(ep: ItemsService.Endpoints, s: HomeState, resp: PageResponse)
    requires s.page >= 1 && !s.loading && s.hasMore
    ensures FeedQuery(LoadMore(s), false).page == Num(s.page + 1)
    ensures FetchItems(ep, LoadMore(s), false, Replied(resp)).state.items == s.items + resp.items.GetOr([])
  {
    var next := LoadMore(s);
    assert next.page == s.page + 1 && next.page != 1 && next.items == s.items;
    assert FeedQuery(next, false).page == Num(next.page);
    assert MergeFeed(next.items, resp.items, false) == s.items + resp.items.GetOr([]);
  }

  /** After the last page has been fetched, load-more no longer advances. */
  lemma LastPageStopsLoadMore(ep: ItemsService.Endpoints, s: HomeState, isRefresh: bool, resp: PageResponse)
    requires resp.currentPage.Some? && resp.totalPages.Some? && resp.currentPage.value >= resp.totalPages.value
    ensures var t := FetchItems(ep, s, isRefresh, Replied(resp)).state;
      LoadMore(t) == t
  {
  }

  /** A failed fetch, whatever started it, leaves the listings and paging as they
      were: a failed load-more or refresh never empties the feed. */
  lemma FailedFetchKeepsFeed(ep: ItemsService.Endpoints, s: HomeState, e: RequestError)
    requires s.page >= 1 && !s.loading && s.hasMore
    ensures FetchItems(ep, LoadMore(s), false, Failed(e)).state.items == s.items
    ensures HandleRefresh(ep, s, Failed(e)).state.items == s.items
    ensures HandleSearch(ep, s, Failed(e)).state.hasMore == s.hasMore
  {
  }

  // ----- the screen over time -----------------------------------------------------

  /** What the user can do once the feed has mounted: pull to refresh (the
      error view's retry button makes the same `fetchItems(true)` call), type
      into the search box, submit the search, tap a category chip, or scroll to
      the end of the list. */
  datatype HomeEvent =
    | Refreshed
    | Typed(text: string)
    | Searched
    | CategoryChosen(id: string)
    | EndReached

  /** One call of `fetchItems`: the state it reads and its `isRefresh` argument. */
  datatype FetchCall = FetchCall(from: HomeState, isRefresh: bool)

  /** The call takes the append branch of `if (isRefresh || page === 1)`. */
  predicate Appends(c: FetchCall) {
    !c.isRefresh && c.from.page != 1
  }

  /** The page a call asks for. */
  lemma FeedPage(s: HomeState, isRefresh: bool)
    ensures FeedQuery(s, isRefresh).page == Num(if isRefresh then 1 else s.page)
  {
  }

  /** The state after some events, and the fetches they caused, in order. */
  datatype Trace = Trace(state: HomeState, calls: seq<FetchCall>)

  /** The fetch an event makes, if any, without its outcome. */
  function EventCall(s: HomeState, ev: HomeEvent): (c: Option<FetchCall>)
    ensures c.None? <==> ev.EndReached? || ev.Typed? || (ev.CategoryChosen? && ev.id == s.selectedCategory)
    ensures c.Some? ==> (c.value.isRefresh <==> ev.Refreshed? || ev.Searched?)
    ensures c.Some? && !c.value.isRefresh ==> c.value.from == SelectCategory(s, ev.id)
  {
    if ev.Refreshed? then Some(FetchCall(s, true))
    else if ev.Searched? then Some(FetchCall(s.(page := 1), true))
    else if ev.CategoryChosen? && ev.id != s.selectedCategory then Some(FetchCall(SelectCategory(s, ev.id), false))
    else None
  }

  /** The same, as a list of at most one call. */
  function EventCalls(s: HomeState, ev: HomeEvent): (cs: seq<FetchCall>)
    ensures |cs| <= 1 && (cs == [] <==> EventCall(s, ev).None?)
    ensures cs != [] ==> cs[0] == EventCall(s, ev).value
  {
    var c := EventCall(s, ev);
    if c.Some? then [c.value] else []
  }

  /** One event and the fetch it causes. Refresh and search fetch as a refresh.
      A chip for another category selects it with page 1, and the effect that
      depends on `selectedCategory` then fetches, not as a refresh; the chip of
      the category already selected only resets the page, so the effect does
      not run. Reaching the end only advances the page: nothing depends on the
      page, so nothing is fetched. Typing only sets the search text: no effect
      depends on it, so nothing is fetched until the search is submitted. */
  function OnEvent(ep: ItemsService.Endpoints, s: HomeState, ev: HomeEvent, reply: Reply<PageResponse>): (r: Trace)
    ensures r.calls == EventCalls(s, ev)
    ensures |r.calls| <= 1
    ensures r.calls == [] <==> ev.EndReached? || ev.Typed? || (ev.CategoryChosen? && ev.id == s.selectedCategory)
    ensures ev.EndReached? ==> r.state == LoadMore(s)
    ensures ev.Typed? ==> r.state == s.(searchQuery := ev.text)
    ensures ev.CategoryChosen? && ev.id == s.selectedCategory ==> r.state == SelectCategory(s, ev.id)
    ensures r.calls != [] ==> r.state == FetchItems(ep, r.calls[0].from, r.calls[0].isRefresh, reply).state
    ensures r.calls != [] ==> (r.calls[0].isRefresh <==> ev.Refreshed? || ev.Searched?)
    ensures r.calls != [] && ev.CategoryChosen? ==> r.calls[0].from == SelectCategory(s, ev.id)
  {
    var c := EventCall(s, ev);
    if c.Some? then Trace(FetchItems(ep, c.value.from, c.value.isRefresh, reply).state, EventCalls(s, ev))
    else if ev.EndReached? then Trace(LoadMore(s), [])
    else if ev.Typed? then Trace(s.(searchQuery := ev.text), [])
    else Trace(SelectCategory(s, ev.id), [])
  }

  /** The events in turn, each with the reply its fetch gets, if it fetches. */
  function Run(ep: ItemsService.Endpoints, s: HomeState, evs: seq<(HomeEvent, Reply<PageResponse>)>): (r: Trace)
    ensures |r.calls| <= |evs|
    decreases |evs|
  {
    if evs == [] then Trace(s, [])
    else
      var first := OnEvent(ep, s, evs[0].0, evs[0].1);
      var rest := Run(ep, first.state, evs[1..]);
      Trace(rest.state, first.calls + rest.calls)
  }

  /** The screen from mounting: the effect's first fetch on the initial state,
      then the events. */
  function Mounted(ep: ItemsService.Endpoints, mountReply: Reply<PageResponse>, evs: seq<(HomeEvent, Reply<PageResponse>)>): (r: Trace)
    ensures |r.calls| >= 1 && r.calls[0] == FetchCall(InitialHome(), false)
  {
    var rest := Run(ep, FetchItems(ep, InitialHome(), false, mountReply).state, evs);
    Trace(rest.state, [FetchCall(InitialHome(), false)] + rest.calls)
  }

  /** Whatever the events, every fetch they cause asks for page 1 and replaces
      the list: the append branch is never taken. */
  lemma {:induction false} RunNeverAppends(ep: ItemsService.Endpoints, s: HomeState, evs: seq<(HomeEvent, Reply<PageResponse>)>)
    ensures forall c :: c in Run(ep, s, evs).calls ==> !Appends(c)
    decreases |evs|
  {
    if evs != [] {
      var first := OnEvent(ep, s, evs[0].0, evs[0].1);
      var rest := Run(ep, first.state, evs[1..]);
      RunNeverAppends(ep, first.state, evs[1..]);
      OnEventNeverAppends(ep, s, evs[0].0, evs[0].1);
      assert Run(ep, s, evs).calls == first.calls + rest.calls;
    }
  }

  /** A single event never makes a fetch that appends. */
  lemma OnEventNeverAppends(ep: ItemsService.Endpoints, s: HomeState, ev: HomeEvent, reply: Reply<PageResponse>)
    ensures forall c :: c in OnEvent(ep, s, ev, reply).calls ==> !Appends(c)
  {
    assert OnEvent(ep, s, ev, reply).calls == EventCalls(s, ev);
  }

  /** As written, the feed never asks for a page other than 1, from mounting
      on: scrolling to the end advances `page`, but no fetch ever reads it. */
  lemma MountedFetchesNeverAppend(ep: ItemsService.Endpoints, mountReply: Reply<PageResponse>, evs: seq<(HomeEvent, Reply<PageResponse>)>)
    ensures forall c :: c in Mounted(ep, mountReply, evs).calls ==> !Appends(c)
    ensures forall c :: c in Mounted(ep, mountReply, evs).calls ==> FeedQuery(c.from, c.isRefresh).page == Num(1)
  {
    var start := FetchItems(ep, InitialHome(), false, mountReply).state;
    RunNeverAppends(ep, start, evs);
    var calls := [FetchCall(InitialHome(), false)] + Run(ep, start, evs).calls;
    assert Mounted(ep, mountReply, evs).calls == calls;
    NoAppendAsksPageOne(calls);
  }

  /** Calls that do not append all ask for page 1. */
  lemma NoAppendAsksPageOne(calls: seq<FetchCall>)
    requires forall c :: c in calls ==> !Appends(c)
    ensures forall c :: c in calls ==> FeedQuery(c.from, c.isRefresh).page == Num(1)
  {
    forall c | c in calls
      ensures FeedQuery(c.from, c.isRefresh).page == Num(1)
    {
      FeedPage(c.from, c.isRefresh);
    }
  }

  /** A worked case: from a full first page, scrolling to the end twice fetches
      nothing, although the page is now 3. */
  lemma EndReachedFetchesNothing(ep: ItemsService.Endpoints, resp: PageResponse, e: RequestError)
    requires HasMore(resp)
    ensures var r := Mounted(ep, Replied(resp), [(EndReached, Failed(e)), (EndReached, Failed(e))]);
      |r.calls| == 1 && r.state.page == 3
  {
    var s1 := FetchItems(ep, InitialHome(), false, Replied(resp)).state;
    var s2 := LoadMore(s1);
    var evs: seq<(HomeEvent, Reply<PageResponse>)> := [(EndReached, Failed(e)), (EndReached, Failed(e))];
    assert evs[1..][1..] == [];
    assert Run(ep, s2, evs[1..]).calls == [];
    assert Run(ep, s1, evs).calls == [];
  }

  /** Typing a search text and submitting it makes exactly one fetch, a
      refresh from page 1 that reads the typed text: the traces do carry
      search terms. */
  lemma TypedThenSearchedSendsText(ep: ItemsService.Endpoints, s: HomeState, text: string, r1: Reply<PageResponse>, r2: Reply<PageResponse>)
    ensures Run(ep, s, [(Typed(text), r1), (Searched, r2)]).calls == [FetchCall(s.(searchQuery := text, page := 1), true)]
  {
    var evs: seq<(HomeEvent, Reply<PageResponse>)> := [(Typed(text), r1), (Searched, r2)];
    var t := s.(searchQuery := text);
    assert OnEvent(ep, s, evs[0].0, evs[0].1) == Trace(t, []);
    assert evs[1..][1..] == [];
    assert Run(ep, t, evs[1..]).calls == [FetchCall(t.(page := 1), true)];
  }

  /** Load-more as evidently intended: advance the page and fetch it, not as a
      refresh, so that the next page is appended. */
  function LoadMoreAndFetch(ep: ItemsService.Endpoints, s: HomeState, reply: Reply<PageResponse>): (r: Trace)
    ensures r.calls == [] <==> s.loading || !s.hasMore
    ensures r.calls == [] ==> r.state == s
    ensures r.calls != [] ==> r.calls == [FetchCall(s.(page := s.page + 1), false)]
    ensures r.calls != [] && s.page >= 1 ==> Appends(r.calls[0])
    ensures r.calls != [] && s.page >= 1 && reply.Replied? ==> r.state.items == s.items + reply.body.items.GetOr([])
    ensures r.calls != [] && reply.Failed? ==> r.state.items == s.items
  {
    if s.loading || !s.hasMore then Trace(s, [])
    else
      var next := s.(page := s.page + 1);
      Trace(FetchItems(ep, next, false, reply).state, [FetchCall(next, false)])
  }
}

=== FILE: item_detail_screen.dfy ===
/** The detail screen of one listing: loading it into the store, the owner's
    delete and availability controls, and which view the screen shows. Each
    handler is a function of the store before it, the answer of the service
    call it makes, and what it produces: the requests it sends, the actions it
    dispatches (the store after is the slice's reducer applied to them), any
    alert it raises, and whether it navigates back. */
module ItemDetailScreen {
  import opened Wrappers
  import opened Js
  import opened Domain
  import opened Transport
  import opened ItemsSlice
  import opened Availability
  import ItemsService

  datatype Outcome = Outcome(store: ItemsState, sent: seq<Request>, dispatched: seq<Action>, alert: Option<string>, wentBack: bool)

  /** `user && currentItem && user.id === currentItem.ownerId`. */
  predicate IsOwner(user: Option<Profile>, current: Option<Listing>) {
    user.Some? && current.Some? && user.value.id == Some(current.value.ownerId)
  }

  /** `fetchItem`: raise the loading flag, clear the error, GET the listing;
      on an answer make its `data` the current listing (even when the answer
      has none), on failure record the message and keep the current listing;
      finally lower the loading flag. */
  function FetchItem(ep: ItemsService.Endpoints, s: ItemsState, itemId: string, reply: Reply<ItemResponse>): (r: Outcome)
    ensures r.sent == [ItemsService.GetItemByIdRequest(ep, itemId)]
    ensures r.store == ReduceAll(s, r.dispatched)
    ensures reply.Replied? ==> r.store.currentItem == reply.body.data && r.store.error == None
    ensures reply.Failed? ==> r.store.currentItem == s.currentItem
    ensures reply.Failed? ==> r.store.error == Some(ItemsService.HandleError(reply.error).message)
    ensures !r.store.loading
    ensures r.store.items == s.items && r.store.myItems == s.myItems && SameCounters(r.store, s)
    ensures r.alert == None && !r.wentBack
  {
    var outcome := match reply
      case Replied(resp) => CurrentItemSet(resp.data)
      case Failed(e) => Error(Some(ItemsService.HandleError(e).message));
    var acts := [Loading(true), Error(None), outcome, Loading(false)];
    var s1 := SetLoading(s, true);
    var s2 := SetError(s1, None);
    var s3 := Reduce(s2, outcome);
    var store := SetLoading(s3, false);
    assert ReduceAll(s3, [Loading(false)]) == store;
    assert ReduceAll(s2, [outcome, Loading(false)]) == store;
    assert ReduceAll(s1, [Error(None), outcome, Loading(false)]) == store;
    Outcome(store, [ItemsService.GetItemByIdRequest(ep, itemId)], acts, None, false)
  }

  /** `handleDelete`, after the confirmation dialog: a cancelled dialog does
      nothing; otherwise DELETE the listing, and only once that succeeded remove
      it from both lists and go back; a failure raises an alert with the
      message and changes nothing. */
  function HandleDelete(ep: ItemsService.Endpoints, s: ItemsState, itemId: string, confirmed: bool, reply: Reply<Ack>): (r: Outcome)
    ensures r.store == ReduceAll(s, r.dispatched)
    ensures !confirmed ==> r.sent == [] && r.dispatched == [] && r.alert == None && !r.wentBack
    ensures confirmed ==> r.sent == [ItemsService.DeleteItemRequest(ep, itemId)]
    ensures confirmed && reply.Replied? ==> r.dispatched == [ItemRemoved(itemId)] && r.wentBack && r.alert == None
    ensures confirmed && reply.Replied? ==> forall x :: x in r.store.items ==> x.id != itemId
    ensures confirmed && reply.Replied? ==> forall x :: x in r.store.myItems ==> x.id != itemId
    ensures reply.Failed? ==> r.dispatched == [] && r.store == s && !r.wentBack
    ensures confirmed && reply.Failed? ==> r.alert == Some(ItemsService.HandleError(reply.error).message)
    ensures r.store.currentItem == s.currentItem
  {
    if !confirmed then Outcome(s, [], [], None, false)
    else if reply.Failed? then
      Outcome(s, [ItemsService.DeleteItemRequest(ep, itemId)], [], Some(ItemsService.HandleError(reply.error).message), false)
    else
      var store := RemoveItem(s, itemId);
      assert ReduceAll(s, [ItemRemoved(itemId)]) == store;
      Outcome(store, [ItemsService.DeleteItemRequest(ep, itemId)], [ItemRemoved(itemId)], None, true)
  }

  /** `handleUpdateAvailability(status)`: choosing the status the listing
      already has does nothing; otherwise PATCH the availability, and only once
      that succeeded patch the store; a failure raises an alert and changes
      nothing. Without a current listing the handler stops before any request. */
  function HandleUpdateAvailability(ep: ItemsService.Endpoints, s: ItemsState, itemId: string, status: string, reply: Reply<Ack>): (r: Outcome)
    ensures r.store == ReduceAll(s, r.dispatched)
    ensures r.sent == [] <==> s.currentItem.None? || s.currentItem.value.availability == status
    ensures r.sent == [] ==> r.store == s && r.dispatched == [] && r.alert == None
    ensures r.sent != [] ==> r.sent == [ItemsService.UpdateAvailabilityRequest(ep, itemId, status)]
    ensures r.sent != [] && reply.Replied? ==> r.dispatched == [AvailabilityUpdated(itemId, status)] && r.alert == None
    ensures r.sent != [] && reply.Failed? ==> r.alert == Some(ItemsService.HandleError(reply.error).message)
    ensures reply.Failed? ==> r.store == s && r.dispatched == []
    ensures !r.wentBack
  {
    if s.currentItem.None? || s.currentItem.value.availability == status then Outcome(s, [], [], None, false)
    else
      var req := ItemsService.UpdateAvailabilityRequest(ep, itemId, status);
      match reply
      case Replied(_) =>
        var act := AvailabilityUpdated(itemId, status);
        assert ReduceAll(s, [act]) == UpdateItemAvailability(s, itemId, status);
        Outcome(UpdateItemAvailability(s, itemId, status), [req], [act], None, false)
      case Failed(e) => Outcome(s, [req], [], Some(ItemsService.HandleError(e).message), false)
  }

  // ----- what the screen shows -----------------------------------------------------

  datatype DetailView =
    | Spinner
    | ErrorNotice(message: string)
    | Blank
    | Details(badge: string, ownerControls: bool, rentBar: bool, rentEnabled: bool)

  /** The screen's early returns, then the details: the badge label, the owner's
      edit/delete/availability controls for the owner, and for everybody else the
      rent bar, enabled only for an available listing. */
  function View(s: ItemsState, user: Option<Profile>): (v: DetailView)
    ensures v.Details? <==> s.currentItem.Some?
    ensures v.Spinner? <==> s.loading && s.currentItem.None?
    ensures v.ErrorNotice? <==> !s.loading && TruthyText(s.error) && s.currentItem.None?
    ensures v.ErrorNotice? ==> v.message == s.error.value && v.message != ""
    ensures v.Blank? <==> !s.loading && !TruthyText(s.error) && s.currentItem.None?
    ensures v.Details? ==> v.badge == Label(s.currentItem.value.availability)
    ensures v.Details? ==> (v.ownerControls <==> IsOwner(user, s.currentItem)) && v.rentBar == !v.ownerControls
    ensures v.Details? ==> (v.rentEnabled <==> RentEnabled(s.currentItem.value.availability))
  {
    if s.loading && s.currentItem.None? then Spinner
    else if TruthyText(s.error) && s.currentItem.None? then ErrorNotice(s.error.value)
    else if s.currentItem.None? then Blank
    else
      var c := s.currentItem.value;
      var owner := IsOwner(user, s.currentItem);
      Details(Label(c.availability), owner, !owner, RentEnabled(c.availability))
  }

  /** A failed reload of a listing that is on screen keeps showing it, with the
      same badge and controls; the error is recorded but not shown. */
  lemma FailedReloadKeepsDetails(ep: ItemsService.Endpoints, s: ItemsState, user: Option<Profile>, itemId: string, e: RequestError)
    requires s.currentItem.Some?
    ensures var after := FetchItem(ep, s, itemId, Failed(e)).store;
      View(after, user) == View(s.(loading := false), user) && View(after, user).Details?
  {
  }

  /** A failed first load shows the classified error message. */
  lemma FailedFirstLoadShowsError(ep: ItemsService.Endpoints, s: ItemsState, user: Option<Profile>, itemId: string, e: RequestError)
    requires s.currentItem.None?
    ensures View(FetchItem(ep, s, itemId, Failed(e)).store, user) == ErrorNotice(ItemsService.HandleError(e).message)
  {
  }

  /** Changing a listing's availability never changes who owns it, so the owner
      keeps the controls after the patch. */
  lemma OwnershipSurvivesAvailabilityPatch(user: Option<Profile>, s: ItemsState, id: string, a: string)
    ensures IsOwner(user, UpdateItemAvailability(s, id, a).currentItem) <==> IsOwner(user, s.currentItem)
  {
  }

  /** Once a change of the listing on screen went through, asking for the same
      status again sends nothing: the no-op guard sees the patched store. */
  lemma RepeatedStatusIsNoOp(ep: ItemsService.Endpoints, s: ItemsState, status: string, ack: Ack, reply: Reply<Ack>)
    requires s.currentItem.Some?
    ensures var first := HandleUpdateAvailability(ep, s, s.currentItem.value.id, status, Replied(ack));
      HandleUpdateAvailability(ep, first.store, s.currentItem.value.id, status, reply).sent == []
  {
  }

  /** A delete that went through takes the listing out of both lists but leaves
      it as the current listing: the screen is left, not emptied. */
  lemma DeleteKeepsCurrentListing(ep: ItemsService.Endpoints, s: ItemsState, ack: Ack)
    requires s.currentItem.Some?
    ensures var r := HandleDelete(ep, s, s.currentItem.value.id, true, Replied(ack));
      r.store.currentItem == s.currentItem && r.wentBack
      && s.currentItem.value !in r.store.items && s.currentItem.value !in r.store.myItems
  {
  }
}

=== FILE: items_service.dfy ===
/** `itemsService`: the request each listing operation issues, and the error
    classifier that turns a failed request into the error the screens see. */
module ItemsService {
  import opened Wrappers
  import opened Js
  import opened Domain
  import opened Transport
  import opened Query

  /** The item endpoint prefixes (`ENDPOINTS.ITEMS.*`). The client's config
      does not define them, so they are parameters of the model. */
  datatype Endpoints = Endpoints(
    getAll: string,
    getById: string,
    getByOwner: string,
    create: string,
    update: string,
    delete: string,
    updateAvailability: string)

  /** `${prefix}/${id}`. */
  function ItemPath(prefix: string, id: string): (p: string)
    ensures |p| == |prefix| + 1 + |id|
    ensures p[..|prefix|] == prefix && p[|prefix|] == '/' && p[|prefix| + 1..] == id
  {
    prefix + "/" + id
  }

  /** `getAllItems(params)`: a GET of the feed prefix followed by the query string. */
  function GetAllItemsRequest(ep: Endpoints, q: ItemQuery): (r: Request)
    ensures r.verb == Get && r.body == NoBody
    ensures |ep.getAll| <= |r.path| && r.path[..|ep.getAll|] == ep.getAll && r.path[|ep.getAll|..] == QueryString(q)
  {
    Request(Get, ep.getAll + QueryString(q), NoBody)
  }

  /** `getItemById(id)`: a GET of `{prefix}/{id}`. */
  function GetItemByIdRequest(ep: Endpoints, id: string): (r: Request)
    ensures r.verb == Get && r.body == NoBody && r.path == ItemPath(ep.getById, id)
  {
    Request(Get, ItemPath(ep.getById, id), NoBody)
  }

  /** `getItemsByOwner(ownerId, params)`: `{prefix}/{ownerId}?page=P&limit=L`,
      with the same defaults as the feed and no other key. */
  function GetItemsByOwnerRequest(ep: Endpoints, ownerId: string, page: JsValue, limit: JsValue): (r: Request)
    ensures r.verb == Get && r.body == NoBody
  {
    Request(Get, ItemPath(ep.getByOwner, ownerId) + PageAndLimit(page, limit), NoBody)
  }

  /** `createItem(data)`: a POST of the payload to the create prefix. */
  function CreateItemRequest(ep: Endpoints, data: ItemData): (r: Request)
    ensures r.verb == Post && r.path == ep.create && r.body == ItemBody(data)
  {
    Request(Post, ep.create, ItemBody(data))
  }

  /** `updateItem(id, data)`: a PUT of the payload to `{prefix}/{id}`. */
  function UpdateItemRequest(ep: Endpoints, id: string, data: ItemData): (r: Request)
    ensures r.verb == Put && r.path == ItemPath(ep.update, id) && r.body == ItemBody(data)
  {
    Request(Put, ItemPath(ep.update, id), ItemBody(data))
  }

  /** `deleteItem(id)`: a DELETE of `{prefix}/{id}`. */
  function DeleteItemRequest(ep: Endpoints, id: string): (r: Request)
    ensures r.verb == Delete && r.body == NoBody && r.path == ItemPath(ep.delete, id)
  {
    Request(Delete, ItemPath(ep.delete, id), NoBody)
  }

  /** `updateAvailability(id, a)`: a PATCH of `{prefix}/{id}/availability`
      whose body is exactly `{availability}`. */
  function UpdateAvailabilityRequest(ep: Endpoints, id: string, a: string): (r: Request)
    ensures r.verb == Patch && r.body == AvailabilityBody(a)
    ensures r.path == ItemPath(ep.updateAvailability, id) + "/availability"
  {
    Request(Patch, ItemPath(ep.updateAvailability, id) + "/availability", AvailabilityBody(a))
  }

  // ----- error classification ----------------------------------------------------

  /** The first truthy candidate message, else the fallback: an independent
      statement of a `a || b || fallback` chain. */
  function FirstTruthy(candidates: seq<Option<string>>, fallback: string): (m: string)
    ensures m == fallback || exists i :: 0 <= i < |candidates| && TruthyText(candidates[i]) && m == candidates[i].value
    ensures (forall i :: 0 <= i < |candidates| ==> !TruthyText(candidates[i])) ==> m == fallback
    ensures forall i :: (0 <= i < |candidates| && TruthyText(candidates[i]) && forall k :: 0 <= k < i ==> !TruthyText(candidates[k]))
                        ==> m == candidates[i].value
    decreases |candidates|
  {
    if candidates == [] then fallback
    else if TruthyText(candidates[0]) then candidates[0].value
    else
      var rest := candidates[1..];
      var m := FirstTruthy(rest, fallback);
      assert forall i :: 1 <= i < |candidates| ==> candidates[i] == rest[i - 1];
      m
  }

  /** The `msg` and `message` of a server error body, `undefined` when the body
      is missing. */
  function ServerMessages(r: ErrorResponse): (c: seq<Option<string>>)
    ensures |c| == 2
  {
    match r.data
    case None => [None, None]
    case Some(d) => [d.msg, d.message]
  }

  const ServerFallback := "An error occurred"
  const NetworkFallback := "Network error"

  /** `_handleError`: a server answer yields its `msg`, else its `message`,
      else a generic text; no answer yields the request's own message, else
      "Network error". The classification is total and never yields an empty
      message. */
  function HandleError(e: RequestError): (r: ClassifiedError)
    ensures r.ServerError? <==> e.response.Some?
    ensures r.ServerError? ==> r.message == FirstTruthy(ServerMessages(e.response.value), ServerFallback)
    ensures r.NetworkError? ==> r.message == FirstTruthy([e.message], NetworkFallback)
    ensures r.message != ""
  {
    match e.response
    case Some(resp) =>
      var msg := if resp.data.Some? then resp.data.value.msg else None;
      var message := if resp.data.Some? then resp.data.value.message else None;
      ServerError(if TruthyText(msg) then msg.value else OrElse(message, ServerFallback))
    case None => NetworkError(OrElse(e.message, NetworkFallback))
  }
}

=== FILE: items_slice.dfy ===
/** The listings store: the browse feed, the signed-in user's own listings,
    the listing on the detail screen, one set of pagination counters shared by
    both lists, and the loading/error flags. Every reducer is a pure state
    transition; `Reduce` dispatches an action to its reducer. */
module ItemsSlice {
  import opened Wrappers
  import opened Domain
  import opened Seqs

  datatype ItemsState = ItemsState(
    items: seq<Listing>,
    myItems: seq<Listing>,
    currentItem: Option<Listing>,
    loading: bool,
    error: Option<string>,
    totalPages: Option<int>,
    currentPage: Option<int>,
    totalItems: Option<int>)

  /** The payload of `setItems`, `appendItems` and `setMyItems`. A counter the
      server left out arrives as `undefined` and is stored as such. */
  datatype PagePayload = PagePayload(
    items: seq<Listing>,
    totalPages: Option<int>,
    currentPage: Option<int>,
    totalItems: Option<int>)

  /** The actions the slice exports, one per reducer. */
  datatype Action =
    | Loading(flag: bool)
    | Error(message: Option<string>)
    | ItemsLoaded(page: PagePayload)
    | ItemsAppended(page: PagePayload)
    | MyItemsLoaded(page: PagePayload)
    | CurrentItemSet(current: Option<Listing>)
    | ItemAdded(added: Listing)
    | ItemUpdated(updated: Listing)
    | ItemRemoved(id: string)
    | AvailabilityUpdated(itemId: string, availability: string)
    | ItemsCleared
    | ErrorCleared

  /** The store before any action: empty lists, no focused listing, page 1 of 0. */
  function Initial(): (s: ItemsState)
    ensures s.items == [] && s.myItems == [] && s.currentItem == None
    ensures !s.loading && s.error == None
    ensures s.totalPages == Some(0) && s.currentPage == Some(1) && s.totalItems == Some(0)
  {
    ItemsState([], [], None, false, None, Some(0), Some(1), Some(0))
  }

  /** The pagination counters of two states agree. */
  predicate SameCounters(a: ItemsState, b: ItemsState) {
    a.totalPages == b.totalPages && a.currentPage == b.currentPage && a.totalItems == b.totalItems
  }

  /** The counters of `s` are the ones a page payload carried. */
  predicate CountersFrom(s: ItemsState, p: PagePayload) {
    s.totalPages == p.totalPages && s.currentPage == p.currentPage && s.totalItems == p.totalItems
  }

  /** Two states agree on everything but the two status flags. */
  predicate SameData(a: ItemsState, b: ItemsState) {
    a.items == b.items && a.myItems == b.myItems && a.currentItem == b.currentItem && SameCounters(a, b)
  }

  // ----- finding a listing by id -------------------------------------------

  /** `findIndex(item => item._id === id)`: the first position holding `id`, or -1. */
  function FindIndex(xs: seq<Listing>, id: string): (i: int)
    ensures -1 <= i < |xs|
    ensures i == -1 <==> forall k :: 0 <= k < |xs| ==> xs[k].id != id
    ensures 0 <= i ==> xs[i].id == id && forall k :: 0 <= k < i ==> xs[k].id != id
    decreases |xs|
  {
    if |xs| == 0 then -1
    else if xs[0].id == id then 0
    else
      var j := FindIndex(xs[1..], id);
      if j == -1 then -1 else j + 1
  }

  /** `xs[index] = x` at the first position holding `id`, when there is one. */
  function ReplaceFirst(xs: seq<Listing>, id: string, x: Listing): (r: seq<Listing>)
    ensures |r| == |xs|
    ensures forall k :: 0 <= k < |xs| && k != FindIndex(xs, id) ==> r[k] == xs[k]
    ensures FindIndex(xs, id) >= 0 ==> r[FindIndex(xs, id)] == x
  {
    var i := FindIndex(xs, id);
    if i == -1 then xs else xs[i := x]
  }

  /** Two listings agree on every field except availability. */
  predicate SameExceptAvailability(a: Listing, b: Listing) {
    a.(availability := b.availability) == b
  }

  /** `xs[index].availability = a` at the first position holding `id`. */
  function PatchFirst(xs: seq<Listing>, id: string, a: string): (r: seq<Listing>)
    ensures |r| == |xs|
    ensures forall k :: 0 <= k < |xs| && k != FindIndex(xs, id) ==> r[k] == xs[k]
    ensures FindIndex(xs, id) >= 0 ==> r[FindIndex(xs, id)] == xs[FindIndex(xs, id)].(availability := a)
  {
    var i := FindIndex(xs, id);
    if i == -1 then xs else xs[i := xs[i].(availability := a)]
  }

  /** `filter(item => item._id !== id)`: `xs` without the listings holding `id`,
      every other listing kept as often as it occurred. */
  function RemoveById(xs: seq<Listing>, id: string): (r: seq<Listing>)
    ensures |r| <= |xs|
    ensures forall x :: x in r ==> x in xs && x.id != id
    ensures forall x: Listing :: x.id != id ==> multiset(r)[x] == multiset(xs)[x]
    decreases |xs|
  {
    if xs == [] then []
    else
      assert xs == [xs[0]] + xs[1..];
      (if xs[0].id == id then [] else [xs[0]]) + RemoveById(xs[1..], id)
  }

  // ----- reducers ---------------------------------------------------------

  /** `setLoading`: only the loading flag changes. */
  function SetLoading(s: ItemsState, flag: bool): (r: ItemsState)
    ensures r.loading == flag && r.error == s.error && SameData(r, s)
  {
    s.(loading := flag)
  }

  /** `setError`: only the error changes. */
  function SetError(s: ItemsState, e: Option<string>): (r: ItemsState)
    ensures r.error == e && r.loading == s.loading && SameData(r, s)
  {
    s.(error := e)
  }

  /** `clearError`: the error is gone, nothing else changes. */
  function ClearError(s: ItemsState): (r: ItemsState)
    ensures r.error == None && r.loading == s.loading && SameData(r, s)
  {
    s.(error := None)
  }

  /** `setItems`: the feed becomes the page; `myItems` and the focused listing stay. */
  function SetItems(s: ItemsState, p: PagePayload): (r: ItemsState)
    ensures r.items == p.items && CountersFrom(r, p)
    ensures r.myItems == s.myItems && r.currentItem == s.currentItem
    ensures r.loading == s.loading && r.error == s.error
  {
    s.(items := p.items, totalPages := p.totalPages, currentPage := p.currentPage, totalItems := p.totalItems)
  }

  /** `appendItems`: the page goes after the existing feed, in order, with no
      de-duplication; the counters become the page's. */
  function AppendItems(s: ItemsState, p: PagePayload): (r: ItemsState)
    ensures |r.items| == |s.items| + |p.items|
    ensures r.items[..|s.items|] == s.items && r.items[|s.items|..] == p.items
    ensures CountersFrom(r, p)
    ensures r.myItems == s.myItems && r.currentItem == s.currentItem
    ensures r.loading == s.loading && r.error == s.error
  {
    s.(items := s.items + p.items, totalPages := p.totalPages, currentPage := p.currentPage, totalItems := p.totalItems)
  }

  /** `setMyItems`: the owned list is replaced wholesale and the feed is left
      alone, but the shared counters are overwritten with the owned list's. */
  function SetMyItems(s: ItemsState, p: PagePayload): (r: ItemsState)
    ensures r.myItems == p.items && CountersFrom(r, p)
    ensures r.items == s.items && r.currentItem == s.currentItem
    ensures r.loading == s.loading && r.error == s.error
  {
    s.(myItems := p.items, totalPages := p.totalPages, currentPage := p.currentPage, totalItems := p.totalItems)
  }

  /** `setCurrentItem`: the focused listing becomes the payload, possibly none. */
  function SetCurrentItem(s: ItemsState, c: Option<Listing>): (r: ItemsState)
    ensures r.currentItem == c
    ensures r.items == s.items && r.myItems == s.myItems && SameCounters(r, s)
    ensures r.loading == s.loading && r.error == s.error
  {
    s.(currentItem := c)
  }

  /** `addItem`: the new listing is at index 0 of `myItems` and every earlier
      entry moves up by one; the feed and the focused listing stay. */
  function AddItem(s: ItemsState, x: Listing): (r: ItemsState)
    ensures |r.myItems| == |s.myItems| + 1 && r.myItems[0] == x
    ensures forall k :: 0 <= k < |s.myItems| ==> r.myItems[k + 1] == s.myItems[k]
    ensures r.items == s.items && r.currentItem == s.currentItem && SameCounters(r, s)
    ensures r.loading == s.loading && r.error == s.error
  {
    s.(myItems := [x] + s.myItems)
  }

  /** `updateItem`: full replacement of the first owned listing with the same
      id, and of the focused listing when its id matches. The feed is never
      touched. */
  function UpdateItem(s: ItemsState, x: Listing): (r: ItemsState)
    ensures |r.myItems| == |s.myItems|
    ensures forall k :: 0 <= k < |s.myItems| && k != FindIndex(s.myItems, x.id) ==> r.myItems[k] == s.myItems[k]
    ensures FindIndex(s.myItems, x.id) >= 0 ==> r.myItems[FindIndex(s.myItems, x.id)] == x
    ensures r.currentItem == (if s.currentItem.Some? && s.currentItem.value.id == x.id then Some(x) else s.currentItem)
    ensures r.items == s.items && SameCounters(r, s)
    ensures r.loading == s.loading && r.error == s.error
  {
    var cur := if s.currentItem.Some? && s.currentItem.value.id == x.id then Some(x) else s.currentItem;
    s.(myItems := ReplaceFirst(s.myItems, x.id, x), currentItem := cur)
  }

  /** `removeItem`: no listing with that id is left in either list; the
      focused listing is kept even when it is the one removed. */
  function RemoveItem(s: ItemsState, id: string): (r: ItemsState)
    ensures forall x :: x in r.items ==> x.id != id
    ensures forall x :: x in r.myItems ==> x.id != id
    ensures forall x :: x in s.items && x.id != id ==> x in r.items
    ensures forall x :: x in s.myItems && x.id != id ==> x in r.myItems
    ensures r.currentItem == s.currentItem && SameCounters(r, s)
    ensures r.loading == s.loading && r.error == s.error
  {
    s.(myItems := RemoveById(s.myItems, id), items := RemoveById(s.items, id))
  }

  /** `updateItemAvailability`: the availability of the first matching owned
      listing, the first matching feed listing and the focused listing (when
      its id matches) becomes `a`. */
  function UpdateItemAvailability(s: ItemsState, id: string, a: string): (r: ItemsState)
    ensures |r.items| == |s.items| && |r.myItems| == |s.myItems|
    ensures FindIndex(s.myItems, id) >= 0 ==> r.myItems[FindIndex(s.myItems, id)].availability == a
    ensures FindIndex(s.items, id) >= 0 ==> r.items[FindIndex(s.items, id)].availability == a
    ensures s.currentItem.Some? && s.currentItem.value.id == id ==> r.currentItem == Some(s.currentItem.value.(availability := a))
    ensures !(s.currentItem.Some? && s.currentItem.value.id == id) ==> r.currentItem == s.currentItem
    ensures SameCounters(r, s) && r.loading == s.loading && r.error == s.error
  {
    var cur := if s.currentItem.Some? && s.currentItem.value.id == id then Some(s.currentItem.value.(availability := a)) else s.currentItem;
    s.(myItems := PatchFirst(s.myItems, id, a), items := PatchFirst(s.items, id, a), currentItem := cur)
  }

  /** `clearItems`: back to the initial collections and counters; loading and
      error are left as they were. */
  function ClearItems(s: ItemsState): (r: ItemsState)
    ensures SameData(r, Initial())
    ensures r.loading == s.loading && r.error == s.error
  {
    Initial().(loading := s.loading, error := s.error)
  }

  /** The slice's reducer: one action applied to the store. */
  function Reduce(s: ItemsState, a: Action): ItemsState {
    match a
    case Loading(flag) => SetLoading(s, flag)
    case Error(e) => SetError(s, e)
    case ItemsLoaded(p) => SetItems(s, p)
    case ItemsAppended(p) => AppendItems(s, p)
    case MyItemsLoaded(p) => SetMyItems(s, p)
    case CurrentItemSet(c) => SetCurrentItem(s, c)
    case ItemAdded(x) => AddItem(s, x)
    case ItemUpdated(x) => UpdateItem(s, x)
    case ItemRemoved(id) => RemoveItem(s, id)
    case AvailabilityUpdated(id, av) => UpdateItemAvailability(s, id, av)
    case ItemsCleared => ClearItems(s)
    case ErrorCleared => ClearError(s)
  }

  /** A sequence of dispatches, applied in order. */
  function ReduceAll(s: ItemsState, acts: seq<Action>): ItemsState
    decreases |acts|
  {
    if acts == [] then s else ReduceAll(Reduce(s, acts[0]), acts[1..])
  }
}

=== FILE: items_slice_lemmas.dfy ===
/** Properties of the listings store that relate several reducer calls, or a
    reducer to an independent description of its effect. */
module ItemsSliceLemmas {
  import opened Wrappers
  import opened Domain
  import opened Seqs
  import opened ItemsSlice

  // ----- removal ------------------------------------------------------------

  /** Removal keeps the surviving listings in their original relative order. */
  lemma {:induction false} RemoveByIdKeepsOrder(xs: seq<Listing>, id: string)
    ensures IsSubsequence(RemoveById(xs, id), xs)
    decreases |xs|
  {
    if xs != [] {
      RemoveByIdKeepsOrder(xs[1..], id);
      var rest := RemoveById(xs[1..], id);
      assert [xs[0]] + xs[1..] == xs;
      if xs[0].id == id {
        assert RemoveById(xs, id) == rest;
        SubsequenceSkip(xs[0], rest, xs[1..]);
      } else {
        assert RemoveById(xs, id) == [xs[0]] + rest;
        SubsequenceKeep(xs[0], rest, xs[1..]);
      }
    }
  }

  /** Removing an id no listing holds changes nothing. */
  lemma {:induction false} RemoveByIdAbsent(xs: seq<Listing>, id: string)
    requires forall x :: x in xs ==> x.id != id
    ensures RemoveById(xs, id) == xs
    decreases |xs|
  {
    if xs != [] {
      RemoveByIdAbsent(xs[1..], id);
      assert [xs[0]] + xs[1..] == xs;
    }
  }

  /** `removeItem` is idempotent: a second removal of the same id is a no-op. */
  lemma RemoveItemIdempotent(s: ItemsState, id: string)
    ensures RemoveItem(RemoveItem(s, id), id) == RemoveItem(s, id)
  {
    var r := RemoveItem(s, id);
    RemoveByIdAbsent(r.items, id);
    RemoveByIdAbsent(r.myItems, id);
  }

  /** After `removeItem`, both lists are order-preserving subsequences of what
      they were, and the removed id appears in neither. */
  lemma RemoveItemKeepsOrder(s: ItemsState, id: string)
    ensures IsSubsequence(RemoveItem(s, id).items, s.items)
    ensures IsSubsequence(RemoveItem(s, id).myItems, s.myItems)
    ensures FindIndex(RemoveItem(s, id).items, id) == -1 && FindIndex(RemoveItem(s, id).myItems, id) == -1
  {
    RemoveByIdKeepsOrder(s.items, id);
    RemoveByIdKeepsOrder(s.myItems, id);
  }

  // ----- availability patch --------------------------------------------------

  /** `FindIndex` looks only at ids: two lists with the same ids position by
      position find the same index. */
  lemma {:induction false} FindIndexByIds(xs: seq<Listing>, ys: seq<Listing>, id: string)
    requires |xs| == |ys|
    requires forall k :: 0 <= k < |xs| ==> xs[k].id == ys[k].id
    ensures FindIndex(xs, id) == FindIndex(ys, id)
    decreases |xs|
  {
    if |xs| > 0 && xs[0].id != id {
      FindIndexByIds(xs[1..], ys[1..], id);
    }
  }

  /** `updateItemAvailability` changes nothing but availability: every listing
      in either list, and the focused listing, keeps every other field, and
      the lists keep their length and ids. */
  lemma AvailabilityPatchOnlyTouchesAvailability(s: ItemsState, id: string, a: string)
    ensures var r := UpdateItemAvailability(s, id, a);
      && (forall k :: 0 <= k < |s.items| ==> SameExceptAvailability(s.items[k], r.items[k]))
      && (forall k :: 0 <= k < |s.myItems| ==> SameExceptAvailability(s.myItems[k], r.myItems[k]))
      && (s.currentItem.Some? <==> r.currentItem.Some?)
      && (s.currentItem.Some? ==> SameExceptAvailability(s.currentItem.value, r.currentItem.value))
  {
  }

  /** Only the first listing holding the id is patched in each list; every
      other position is untouched. */
  lemma AvailabilityPatchOnlyFirstMatch(s: ItemsState, id: string, a: string)
    ensures var r := UpdateItemAvailability(s, id, a);
      forall k :: 0 <= k < |s.items| && k != FindIndex(s.items, id) ==> r.items[k] == s.items[k]
    ensures var r := UpdateItemAvailability(s, id, a);
      forall k :: 0 <= k < |s.myItems| && k != FindIndex(s.myItems, id) ==> r.myItems[k] == s.myItems[k]
  {
  }

  /** On one list: patching twice is patching once. */
  lemma PatchFirstIdempotent(xs: seq<Listing>, id: string, a: string)
    ensures PatchFirst(PatchFirst(xs, id, a), id, a) == PatchFirst(xs, id, a)
  {
    var r := PatchFirst(xs, id, a);
    FindIndexByIds(xs, r, id);
    var i := FindIndex(xs, id);
    if i >= 0 {
      assert r[i].(availability := a) == r[i];
      assert PatchFirst(r, id, a) == r[i := r[i]] == r;
    }
  }

  /** Patching the same availability twice is patching it once. */
  lemma AvailabilityPatchIdempotent(s: ItemsState, id: string, a: string)
    ensures UpdateItemAvailability(UpdateItemAvailability(s, id, a), id, a) == UpdateItemAvailability(s, id, a)
  {
    PatchFirstIdempotent(s.items, id, a);
    PatchFirstIdempotent(s.myItems, id, a);
  }

  /** A second copy of a listing in the feed (possible after an append, which
      does not de-duplicate) keeps its old availability. */
  lemma AvailabilityPatchMissesDuplicate(x: Listing, a: string)
    requires x.availability != a
    ensures var s := Initial().(items := [x, x]);
      UpdateItemAvailability(s, x.id, a).items == [x.(availability := a), x]
  {
    var s := Initial().(items := [x, x]);
    assert FindIndex(s.items, x.id) == 0;
  }

  // ----- the other reducers ----------------------------------------------------

  /** `appendItems` does not de-duplicate: a listing already in the feed and
      in the page occurs at least twice afterwards. */
  lemma AppendKeepsDuplicates(s: ItemsState, p: PagePayload, x: Listing)
    requires x in s.items && x in p.items
    ensures multiset(AppendItems(s, p).items)[x] >= 2
  {
    assert AppendItems(s, p).items == s.items + p.items;
  }

  /** `setMyItems` after `setItems` leaves the feed's items but replaces its
      pagination counters with the owned list's. */
  lemma OwnedPageClobbersFeedCounters(s: ItemsState, feed: PagePayload, owned: PagePayload)
    ensures var r := SetMyItems(SetItems(s, feed), owned);
      r.items == feed.items && r.myItems == owned.items && CountersFrom(r, owned)
  {
  }

  /** `updateItem` does not touch the feed, so a feed copy of the updated
      listing keeps its old fields. */
  lemma UpdateItemLeavesFeedCopy(x: Listing, y: Listing)
    requires x.id == y.id && x != y
    ensures var s := Initial().(items := [x], myItems := [x]);
      && UpdateItem(s, y).myItems == [y]
      && UpdateItem(s, y).items == [x]
  {
    var s := Initial().(items := [x], myItems := [x]);
    assert FindIndex(s.myItems, y.id) == 0;
  }

  /** `clearItems` forgets every listing and counter, so clearing twice is
      clearing once. */
  lemma ClearItemsIdempotent(s: ItemsState)
    ensures ClearItems(ClearItems(s)) == ClearItems(s)
    ensures ClearItems(s).items == [] && ClearItems(s).myItems == [] && ClearItems(s).currentItem == None
  {
  }

  // ----- dispatch sequences -----------------------------------------------------

  /** Dispatching `a` then `b` is dispatching `a + b`. */
  lemma {:induction false} ReduceAllAppend(s: ItemsState, a: seq<Action>, b: seq<Action>)
    ensures ReduceAll(s, a + b) == ReduceAll(ReduceAll(s, a), b)
    decreases |a|
  {
    if a == [] {
      assert a + b == b;
    } else {
      assert (a + b)[0] == a[0];
      assert (a + b)[1..] == a[1..] + b;
      ReduceAllAppend(Reduce(s, a[0]), a[1..], b);
    }
  }
}

=== FILE: js.dfy ===
/** The two JavaScript value rules the client's logic depends on: truthiness
    (`if (x)`, `x || y`) and stringification inside a template literal. */
module Js {
  import opened Wrappers
  import opened Text

  /** A scalar value as it reaches a query builder or an `if`. Numbers are
      integers here; `NaN` and fractional values are not modelled. */
  datatype JsValue = Undefined | Null | Str(s: string) | Num(n: int)

  /** JavaScript truthiness: `undefined`, `null`, `""` and `0` are falsy. */
  predicate Truthy(v: JsValue) {
    match v
    case Undefined => false
    case Null => false
    case Str(s) => s != ""
    case Num(n) => n != 0
  }

  /** `${v}`: how a value is spliced into a template literal. */
  function Show(v: JsValue): (r: string)
    ensures v.Str? ==> r == v.s
  {
    match v
    case Undefined => "undefined"
    case Null => "null"
    case Str(s) => s
    case Num(n) => IntToString(n)
  }

  /** Truthiness of an optional string field (`response.token`, `data.message`). */
  predicate TruthyText(o: Option<string>) {
    o.Some? && o.value != ""
  }

  /** `a || b` on optional strings: the first truthy one, else the fallback. */
  function OrElse(a: Option<string>, fallback: string): string
  {
    if TruthyText(a) then a.value else fallback
  }
}

=== FILE: my_items_screen.dfy ===
/** The owner's list of listings: the status tabs, the counts above them, and
    loading the list from the server into the store. */
module MyItemsScreen {
  import opened Wrappers
  import opened Js
  import opened Domain
  import opened Transport
  import opened Seqs
  import opened ItemsSlice
  import ItemsService
  import ItemsSliceLemmas

  /** The tab that shows every listing; the other tabs are statuses. */
  const AllFilter := "all"

  /** The listings whose availability is `a`, in their original order. */
  function WithStatus(xs: seq<Listing>, a: string): (r: seq<Listing>)
    ensures |r| <= |xs|
    ensures forall x :: x in r ==> x in xs && x.availability == a
    ensures IsSubsequence(r, xs)
    decreases |xs|
  {
    if xs == [] then []
    else
      var rest := WithStatus(xs[1..], a);
      assert xs == [xs[0]] + xs[1..];
      if xs[0].availability == a then
        SubsequenceKeep(xs[0], rest, xs[1..]);
        [xs[0]] + rest
      else
        SubsequenceSkip(xs[0], rest, xs[1..]);
        rest
  }

  /** A status selection keeps every listing with that status as often as the
      list holds it: nothing with the status is dropped or duplicated. */
  lemma {:induction false} WithStatusKeepsCount(xs: seq<Listing>, a: string, x: Listing)
    requires x.availability == a
    ensures multiset(WithStatus(xs, a))[x] == multiset(xs)[x]
    decreases |xs|
  {
    if xs != [] {
      WithStatusKeepsCount(xs[1..], a, x);
      var rest := WithStatus(xs[1..], a);
      assert xs == [xs[0]] + xs[1..];
      assert multiset(xs) == multiset{xs[0]} + multiset(xs[1..]);
      if xs[0].availability == a {
        assert multiset([xs[0]] + rest) == multiset{xs[0]} + multiset(rest);
      }
    }
  }

  /** `filteredItems`: the "all" tab shows the list as it is; a status tab
      shows exactly the listings with that status, in list order. */
  function FilteredItems(myItems: seq<Listing>, filter: string): (r: seq<Listing>)
    ensures filter == AllFilter ==> r == myItems
    ensures filter != AllFilter ==> forall x :: x in r ==> x.availability == filter
    ensures filter != AllFilter ==> forall x: Listing :: x.availability == filter ==> multiset(r)[x] == multiset(myItems)[x]
    ensures IsSubsequence(r, myItems)
  {
    if filter == AllFilter then
      SubsequenceRefl(myItems);
      myItems
    else
      forall x: Listing | x.availability == filter
        ensures multiset(WithStatus(myItems, filter))[x] == multiset(myItems)[x]
      {
        WithStatusKeepsCount(myItems, filter, x);
      }
      WithStatus(myItems, filter)
  }

  /** Two different statuses select disjoint parts of a list, so together they
      never hold more listings than the list. */
  lemma {:induction false} DisjointStatusesFit(xs: seq<Listing>, a: string, b: string)
    requires a != b
    ensures |WithStatus(xs, a)| + |WithStatus(xs, b)| <= |xs|
    decreases |xs|
  {
    if xs != [] {
      DisjointStatusesFit(xs[1..], a, b);
    }
  }

  datatype Stats = Stats(total: nat, available: nat, rented: nat)

  /** `getStats`: the number of listings, and how many are available and how
      many rented; the two counts never exceed the total. */
  function GetStats(myItems: seq<Listing>): (st: Stats)
    ensures st.total == |myItems|
    ensures st.available + st.rented <= st.total
    ensures st.available == |WithStatus(myItems, "available")| && st.rented == |WithStatus(myItems, "rented")|
  {
    DisjointStatusesFit(myItems, "available", "rented");
    Stats(|myItems|, |WithStatus(myItems, "available")|, |WithStatus(myItems, "rented")|)
  }

  /** The counts are those of the "all", "available" and "rented" tabs, whatever
      tab is active. */
  lemma StatsMatchTabs(myItems: seq<Listing>)
    ensures GetStats(myItems).total == |FilteredItems(myItems, AllFilter)|
    ensures GetStats(myItems).available == |FilteredItems(myItems, "available")|
    ensures GetStats(myItems).rented == |FilteredItems(myItems, "rented")|
  {
  }

  /** A list whose listings all have one status shows whole under that
      status's tab. */
  lemma {:induction false} UniformListShowsWhole(xs: seq<Listing>, a: string)
    requires a != AllFilter
    requires forall x :: x in xs ==> x.availability == a
    ensures FilteredItems(xs, a) == xs
    decreases |xs|
  {
    if xs != [] {
      UniformListShowsWhole(xs[1..], a);
      assert xs[0] in xs;
      assert xs == [xs[0]] + xs[1..];
    }
  }

  // ----- loading the list -----------------------------------------------------------

  datatype Outcome = Outcome(store: ItemsState, sent: seq<Request>, dispatched: seq<Action>)

  /** `user?.id` is truthy. */
  predicate HasUserId(user: Option<Profile>) {
    user.Some? && TruthyText(user.value.id)
  }

  /** The page payload `fetchMyItems` dispatches: the answer's listings, or an
      empty list when it has none, and its counters as they came. */
  function OwnedPage(resp: PageResponse): (p: PagePayload)
    ensures p.items == resp.items.GetOr([])
    ensures p.totalPages == resp.totalPages && p.currentPage == resp.currentPage && p.totalItems == resp.totalItems
  {
    PagePayload(resp.items.GetOr([]), resp.totalPages, resp.currentPage, resp.totalItems)
  }

  /** `fetchMyItems(isRefresh)`: without a user id nothing happens. Otherwise
      raise the loading flag (a refresh uses the screen's own spinner instead),
      clear the error, GET the owner's first page; on an answer replace the
      owned list and the shared counters, on failure record the message; lower
      the loading flag. */
  function FetchMyItems(ep: ItemsService.Endpoints, s: ItemsState, user: Option<Profile>, isRefresh: bool, reply: Reply<PageResponse>): (r: Outcome)
    ensures r.store == ReduceAll(s, r.dispatched)
    ensures !HasUserId(user) ==> r.sent == [] && r.dispatched == [] && r.store == s
    ensures HasUserId(user) ==> r.sent == [ItemsService.GetItemsByOwnerRequest(ep, user.value.id.value, Undefined, Undefined)]
    ensures HasUserId(user) ==> !r.store.loading
    ensures HasUserId(user) && reply.Replied? ==> r.store.myItems == reply.body.items.GetOr([]) && r.store.error == None
    ensures HasUserId(user) && reply.Replied? ==> CountersFrom(r.store, OwnedPage(reply.body))
    ensures reply.Failed? ==> r.store.myItems == s.myItems && SameCounters(r.store, s)
    ensures HasUserId(user) && reply.Failed? ==> r.store.error == Some(ItemsService.HandleError(reply.error).message)
    ensures r.store.items == s.items && r.store.currentItem == s.currentItem
  {
    if !HasUserId(user) then Outcome(s, [], [])
    else
      var req := ItemsService.GetItemsByOwnerRequest(ep, user.value.id.value, Undefined, Undefined);
      var start := if isRefresh then [] else [Loading(true)];
      var outcome := match reply
        case Replied(resp) => MyItemsLoaded(OwnedPage(resp))
        case Failed(e) => Error(Some(ItemsService.HandleError(e).message));
      var s1 := ReduceAll(s, start);
      var s2 := SetError(s1, None);
      var s3 := Reduce(s2, outcome);
      var store := SetLoading(s3, false);
      assert s1 == (if isRefresh then s else SetLoading(s, true));
      assert ReduceAll(s1, [Error(None), outcome, Loading(false)]) == store by {
        assert ReduceAll(s3, [Loading(false)]) == store;
        assert ReduceAll(s2, [outcome, Loading(false)]) == store;
      }
      ItemsSliceLemmas.ReduceAllAppend(s, start, [Error(None), outcome, Loading(false)]);
      Outcome(store, [req], start + [Error(None), outcome, Loading(false)])
  }

  /** A pull-to-refresh ends in the same store as a first load: it differs only
      in not raising the store's loading flag on the way. */
  lemma RefreshEndsLikeLoad(ep: ItemsService.Endpoints, s: ItemsState, user: Option<Profile>, reply: Reply<PageResponse>)
    ensures FetchMyItems(ep, s, user, true, reply).store == FetchMyItems(ep, s, user, false, reply).store
    ensures FetchMyItems(ep, s, user, true, reply).sent == FetchMyItems(ep, s, user, false, reply).sent
  {
  }
}

=== FILE: query.dfy ===
/** The feed query string of `itemsService.getAllItems`: page and limit first
    (defaulting to 1 and 10), then each optional filter key whose value is
    truthy, in a fixed order, with the value spliced in verbatim. */
module Query {
  import opened Wrappers
  import opened Text
  import opened Js
  import opened Seqs

  /** The `params` object handed to `getAllItems`; a key the caller did not set
      is `Undefined`. */
  datatype ItemQuery = ItemQuery(
    page: JsValue,
    limit: JsValue,
    category: JsValue,
    city: JsValue,
    minPrice: JsValue,
    maxPrice: JsValue,
    search: JsValue,
    availability: JsValue)

  /** A query with nothing set: `getAllItems()` with its default `params = {}`. */
  const NoQuery := ItemQuery(Undefined, Undefined, Undefined, Undefined, Undefined, Undefined, Undefined, Undefined)

  const DefaultPage := 1
  const DefaultLimit := 10

  /** The optional keys, in the order the builder tests them. */
  const OptionalKeys: seq<string> := ["category", "city", "minPrice", "maxPrice", "search", "availability"]

  /** One `key=value` pair of a query string. */
  type Param = (string, string)

  /** A destructuring default: it replaces `undefined` only (`null` is kept). */
  function WithDefault(v: JsValue, d: int): JsValue {
    if v.Undefined? then Num(d) else v
  }

  /** The optional values, aligned with `OptionalKeys`. */
  function OptionalValues(q: ItemQuery): (vs: seq<JsValue>)
    ensures |vs| == |OptionalKeys|
  {
    [q.category, q.city, q.minPrice, q.maxPrice, q.search, q.availability]
  }

  /** `if (v) queryString += "&key=v"`: one conditional append of the builder. */
  function Segment(key: string, v: JsValue): string {
    if Truthy(v) then "&" + key + "=" + Show(v) else ""
  }

  /** The leading `?page=P&limit=L` every feed query starts with. */
  function PageAndLimit(page: JsValue, limit: JsValue): string {
    "?page=" + Show(WithDefault(page, DefaultPage)) + "&limit=" + Show(WithDefault(limit, DefaultLimit))
  }

  /** The conditional appends for `keys`, in order: `&key=value` for each key
      whose value is truthy. */
  function Segments(keys: seq<string>, vals: seq<JsValue>): string
    requires |keys| == |vals|
    decreases |keys|
  {
    if keys == [] then "" else Segment(keys[0], vals[0]) + Segments(keys[1..], vals[1..])
  }

  /** The query string as `getAllItems` builds it: page and limit, then one
      conditional append per optional key, in the order the code tests them. */
  function QueryString(q: ItemQuery): (r: string)
    ensures |PageAndLimit(q.page, q.limit)| <= |r| && r[..|PageAndLimit(q.page, q.limit)|] == PageAndLimit(q.page, q.limit)
  {
    PageAndLimit(q.page, q.limit) + Segments(OptionalKeys, OptionalValues(q))
  }

  // ----- the same query as a list of parameters -------------------------------

  /** The pairs for the keys whose values are truthy, in key order. */
  function Included(keys: seq<string>, vals: seq<JsValue>): (r: seq<Param>)
    requires |keys| == |vals|
    ensures |r| <= |keys|
    decreases |keys|
  {
    if keys == [] then []
    else (if Truthy(vals[0]) then [(keys[0], Show(vals[0]))] else []) + Included(keys[1..], vals[1..])
  }

  /** The parameters a feed query carries, in the order they are sent. */
  function QueryParams(q: ItemQuery): (ps: seq<Param>)
    ensures |ps| >= 2
    ensures ps[0] == ("page", Show(WithDefault(q.page, DefaultPage)))
    ensures ps[1] == ("limit", Show(WithDefault(q.limit, DefaultLimit)))
  {
    [("page", Show(WithDefault(q.page, DefaultPage))), ("limit", Show(WithDefault(q.limit, DefaultLimit)))]
      + Included(OptionalKeys, OptionalValues(q))
  }

  function KeysOf(ps: seq<Param>): (ks: seq<string>)
    ensures |ks| == |ps|
    ensures forall i :: 0 <= i < |ps| ==> ks[i] == ps[i].0
  {
    seq(|ps|, i requires 0 <= i < |ps| => ps[i].0)
  }

  /** The value of the first pair with key `k`. */
  function Lookup(ps: seq<Param>, k: string): Option<string>
    decreases |ps|
  {
    if ps == [] then None else if ps[0].0 == k then Some(ps[0].1) else Lookup(ps[1..], k)
  }

  predicate Distinct<T(==)>(xs: seq<T>) {
    forall i, j :: 0 <= i < j < |xs| ==> xs[i] != xs[j]
  }

  // ----- rendering and parsing ------------------------------------------------

  /** `k=v`. */
  function Piece(p: Param): string {
    p.0 + "=" + p.1
  }

  /** `&p1&p2...`: each piece preceded by an ampersand. */
  function Tail(pieces: seq<string>): string
    decreases |pieces|
  {
    if pieces == [] then "" else "&" + pieces[0] + Tail(pieces[1..])
  }

  /** The pieces joined with `&`. */
  function Join(pieces: seq<string>): string
    requires |pieces| > 0
  {
    pieces[0] + Tail(pieces[1..])
  }

  function Pieces(ps: seq<Param>): (r: seq<string>)
    ensures |r| == |ps|
    ensures forall i :: 0 <= i < |ps| ==> r[i] == Piece(ps[i])
  {
    seq(|ps|, i requires 0 <= i < |ps| => Piece(ps[i]))
  }

  /** A parameter list written out as `?k1=v1&k2=v2...`. */
  function Render(ps: seq<Param>): string
    requires |ps| > 0
  {
    "?" + Join(Pieces(ps))
  }

  /** `s` cut at every occurrence of `c`. */
  function SplitOn(s: string, c: char): (r: seq<string>)
    ensures |r| >= 1
    decreases |s|
  {
    if s == [] then [""]
    else if s[0] == c then [""] + SplitOn(s[1..], c)
    else
      var rest := SplitOn(s[1..], c);
      [[s[0]] + rest[0]] + rest[1..]
  }

  /** `s` cut at its first `c`: the key and the value of one piece. */
  function SplitFirst(s: string, c: char): Param
    decreases |s|
  {
    if s == [] then ("", "")
    else if s[0] == c then ("", s[1..])
    else
      var (k, v) := SplitFirst(s[1..], c);
      ([s[0]] + k, v)
  }

  /** How a server reads a query string back into parameters: split at `&`,
      then each piece at its first `=`. */
  function ParseQuery(s: string): seq<Param> {
    if |s| > 0 && s[0] == '?' then
      var pieces := SplitOn(s[1..], '&');
      seq(|pieces|, i requires 0 <= i < |pieces| => SplitFirst(pieces[i], '='))
    else []
  }

  /** A value whose text holds no ampersand. */
  predicate NoAmpersand(v: JsValue) {
    v.Str? ==> '&' !in v.s
  }

  /** No value of the query holds an ampersand. */
  predicate NoAmpersandValues(q: ItemQuery) {
    && NoAmpersand(q.page) && NoAmpersand(q.limit) && NoAmpersand(q.category) && NoAmpersand(q.city)
    && NoAmpersand(q.minPrice) && NoAmpersand(q.maxPrice) && NoAmpersand(q.search) && NoAmpersand(q.availability)
  }

  /** No key holds `&` or `=`, and no value holds `&`: the condition under which
      a rendered query can be read back. */
  predicate Unambiguous(ps: seq<Param>) {
    forall i :: 0 <= i < |ps| ==> '&' !in ps[i].0 && '=' !in ps[i].0 && '&' !in ps[i].1
  }
}

=== FILE: query_lemmas.dfy ===
/** What the feed query string promises: it is the rendering of an ordered
    parameter list; page and limit lead; an optional key is present exactly
    when its value is truthy, at most once and in the fixed key order; and the
    string can be read back into that list unless a value holds an `&`. */
module QueryLemmas {
  import opened Wrappers
  import opened Text
  import opened Js
  import opened Seqs
  import opened Query

  // ----- the step-by-step string is the rendering of the parameter list -------

  lemma {:induction false} TailAppend(a: seq<string>, b: seq<string>)
    ensures Tail(a + b) == Tail(a) + Tail(b)
    decreases |a|
  {
    if a == [] {
      assert a + b == b;
    } else {
      assert (a + b)[0] == a[0];
      assert (a + b)[1..] == a[1..] + b;
      TailAppend(a[1..], b);
    }
  }

  lemma PiecesAppend(a: seq<Param>, b: seq<Param>)
    ensures Pieces(a + b) == Pieces(a) + Pieces(b)
  {
  }

  /** One conditional append of the builder is the tail of the pair it includes. */
  lemma SegmentIsTail(k: string, v: JsValue)
    ensures Segment(k, v) == Tail(Pieces(if Truthy(v) then [(k, Show(v))] else []))
  {
    if Truthy(v) {
      var ps := [(k, Show(v))];
      assert Pieces(ps) == [Piece((k, Show(v)))];
      assert Pieces(ps)[1..] == [];
      assert "&" + (k + "=" + Show(v)) + "" == "&" + k + "=" + Show(v);
    } else {
      assert Pieces([]) == [];
    }
  }

  lemma {:induction false} TailOfIncluded(keys: seq<string>, vals: seq<JsValue>)
    requires |keys| == |vals|
    ensures Tail(Pieces(Included(keys, vals))) == Segments(keys, vals)
    decreases |keys|
  {
    if keys != [] {
      var head: seq<Param> := if Truthy(vals[0]) then [(keys[0], Show(vals[0]))] else [];
      var rest := Included(keys[1..], vals[1..]);
      assert Included(keys, vals) == head + rest;
      PiecesAppend(head, rest);
      TailAppend(Pieces(head), Pieces(rest));
      TailOfIncluded(keys[1..], vals[1..]);
      SegmentIsTail(keys[0], vals[0]);
    }
  }

  /** Rendering a list whose first two pairs are `a` and `b`. */
  lemma RenderTwoThen(a: Param, b: Param, rest: seq<Param>)
    ensures Render([a, b] + rest) == "?" + Piece(a) + "&" + Piece(b) + Tail(Pieces(rest))
  {
    var ps := [a, b] + rest;
    var pieces := Pieces(ps);
    assert pieces[1..] == [Piece(b)] + Pieces(rest);
    assert pieces[1..][1..] == Pieces(rest);
  }

  /** A list led by page and limit renders as the builder's `?page=P&limit=L`
      followed by the remaining pairs. */
  lemma RenderPageAndLimit(x: string, y: string, rest: seq<Param>)
    ensures Render([("page", x), ("limit", y)] + rest) == "?page=" + x + "&limit=" + y + Tail(Pieces(rest))
  {
    RenderTwoThen(("page", x), ("limit", y), rest);
    assert Piece(("page", x)) == "page=" + x;
    assert Piece(("limit", y)) == "limit=" + y;
    var t := Tail(Pieces(rest));
    assert "?" + ("page=" + x) == "?page=" + x;
    assert "&" + ("limit=" + y) == "&limit=" + y;
    assert "?page=" + x + "&" + ("limit=" + y) + t == "?page=" + x + "&limit=" + y + t;
  }

  /** The builder's string is exactly the parameter list written out. */
  lemma QueryStringRendersParams(q: ItemQuery)
    ensures QueryString(q) == Render(QueryParams(q))
  {
    var inc := Included(OptionalKeys, OptionalValues(q));
    var x := Show(WithDefault(q.page, DefaultPage));
    var y := Show(WithDefault(q.limit, DefaultLimit));
    assert QueryParams(q) == [("page", x), ("limit", y)] + inc;
    RenderPageAndLimit(x, y, inc);
    TailOfIncluded(OptionalKeys, OptionalValues(q));
  }

  // ----- presence of optional keys ---------------------------------------------

  /** Every included pair is some truthy key's pair. */
  lemma {:induction false} IncludedFrom(keys: seq<string>, vals: seq<JsValue>)
    requires |keys| == |vals|
    ensures forall p :: p in Included(keys, vals) ==> exists j :: 0 <= j < |keys| && p == (keys[j], Show(vals[j])) && Truthy(vals[j])
    decreases |keys|
  {
    if keys != [] {
      IncludedFrom(keys[1..], vals[1..]);
      var rest := Included(keys[1..], vals[1..]);
      forall p | p in Included(keys, vals)
        ensures exists j :: 0 <= j < |keys| && p == (keys[j], Show(vals[j])) && Truthy(vals[j])
      {
        if p in rest {
          var i :| 0 <= i < |keys[1..]| && p == (keys[1..][i], Show(vals[1..][i])) && Truthy(vals[1..][i]);
          assert p == (keys[i + 1], Show(vals[i + 1])) && Truthy(vals[i + 1]);
        } else {
          assert Truthy(vals[0]) && p == (keys[0], Show(vals[0]));
        }
      }
    }
  }

  lemma {:induction false} LookupAbsent(ps: seq<Param>, k: string)
    requires forall p :: p in ps ==> p.0 != k
    ensures Lookup(ps, k) == None
    decreases |ps|
  {
    if ps != [] {
      LookupAbsent(ps[1..], k);
    }
  }

  lemma {:induction false} LookupIncluded(keys: seq<string>, vals: seq<JsValue>, j: int)
    requires |keys| == |vals| && Distinct(keys) && 0 <= j < |keys|
    ensures Lookup(Included(keys, vals), keys[j]) == if Truthy(vals[j]) then Some(Show(vals[j])) else None
    decreases |keys|
  {
    var rest := Included(keys[1..], vals[1..]);
    var r := Included(keys, vals);
    if j == 0 {
      if !Truthy(vals[0]) {
        assert r == rest;
        IncludedFrom(keys[1..], vals[1..]);
        forall p | p in rest
          ensures p.0 != keys[0]
        {
          var i :| 0 <= i < |keys[1..]| && p == (keys[1..][i], Show(vals[1..][i]));
          assert keys[1..][i] == keys[i + 1];
        }
        LookupAbsent(rest, keys[0]);
      }
    } else {
      assert keys[1..][j - 1] == keys[j];
      assert vals[1..][j - 1] == vals[j];
      LookupIncluded(keys[1..], vals[1..], j - 1);
      assert keys[0] != keys[j];
      if Truthy(vals[0]) {
        assert r == [(keys[0], Show(vals[0]))] + rest;
        assert r[1..] == rest;
      } else {
        assert r == rest;
      }
    }
  }

  lemma OptionalKeysDistinct()
    ensures Distinct(OptionalKeys)
    ensures "page" !in OptionalKeys && "limit" !in OptionalKeys
  {
  }

  /** An optional key is in the feed query exactly when its value is truthy,
      and then carries that value verbatim: a `minPrice` of 0 or an empty
      search is left out. */
  lemma OptionalKeyPresentIffTruthy(q: ItemQuery, j: int)
    requires 0 <= j < |OptionalKeys|
    ensures Lookup(QueryParams(q), OptionalKeys[j])
      == if Truthy(OptionalValues(q)[j]) then Some(Show(OptionalValues(q)[j])) else None
  {
    OptionalKeysDistinct();
    LookupIncluded(OptionalKeys, OptionalValues(q), j);
    var ps := QueryParams(q);
    assert ps[0].0 != OptionalKeys[j] && ps[1].0 != OptionalKeys[j];
    assert ps[1..][1..] == Included(OptionalKeys, OptionalValues(q));
  }

  // ----- order and uniqueness of keys ------------------------------------------

  lemma {:induction false} IncludedKeysInOrder(keys: seq<string>, vals: seq<JsValue>)
    requires |keys| == |vals|
    ensures IsSubsequence(KeysOf(Included(keys, vals)), keys)
    decreases |keys|
  {
    if keys != [] {
      IncludedKeysInOrder(keys[1..], vals[1..]);
      var rest := Included(keys[1..], vals[1..]);
      assert [keys[0]] + keys[1..] == keys;
      if Truthy(vals[0]) {
        assert KeysOf(Included(keys, vals)) == [keys[0]] + KeysOf(rest);
        SubsequenceKeep(keys[0], KeysOf(rest), keys[1..]);
      } else {
        assert KeysOf(Included(keys, vals)) == KeysOf(rest);
        SubsequenceSkip(keys[0], KeysOf(rest), keys[1..]);
      }
    }
  }

  lemma {:induction false} SubsequenceMembers<T>(a: seq<T>, b: seq<T>)
    requires IsSubsequence(a, b)
    ensures forall x :: x in a ==> x in b
    decreases |b|
  {
    if a != [] && b != [] {
      assert b == [b[0]] + b[1..];
      if a[0] == b[0] && IsSubsequence(a[1..], b[1..]) {
        SubsequenceMembers(a[1..], b[1..]);
        assert a == [a[0]] + a[1..];
      } else {
        SubsequenceMembers(a, b[1..]);
      }
    }
  }

  lemma {:induction false} SubsequenceDistinct<T>(a: seq<T>, b: seq<T>)
    requires IsSubsequence(a, b) && Distinct(b)
    ensures Distinct(a)
    decreases |b|
  {
    if a != [] && b != [] {
      if a[0] == b[0] && IsSubsequence(a[1..], b[1..]) {
        SubsequenceDistinct(a[1..], b[1..]);
        SubsequenceMembers(a[1..], b[1..]);
        assert b[0] !in b[1..];
        forall i, j | 0 <= i < j < |a|
          ensures a[i] != a[j]
        {
          if i == 0 {
            assert a[j] == a[1..][j - 1];
            assert a[j] in b[1..];
          } else {
            assert a[i] == a[1..][i - 1] && a[j] == a[1..][j - 1];
          }
        }
      } else {
        assert Distinct(b[1..]);
        SubsequenceDistinct(a, b[1..]);
      }
    }
  }

  lemma KeysOfAppend(a: seq<Param>, b: seq<Param>)
    ensures KeysOf(a + b) == KeysOf(a) + KeysOf(b)
  {
  }

  /** Two duplicate-free lists with no element in common join into a
      duplicate-free list. */
  lemma DistinctAppend<T>(a: seq<T>, b: seq<T>)
    requires Distinct(a) && Distinct(b)
    requires forall x :: x in b ==> x !in a
    ensures Distinct(a + b)
  {
    forall i, j | 0 <= i < j < |a + b|
      ensures (a + b)[i] != (a + b)[j]
    {
      if j >= |a| {
        assert (a + b)[j] == b[j - |a|] && b[j - |a|] in b;
        if i >= |a| {
          assert (a + b)[i] == b[i - |a|];
        }
      }
    }
  }

  /** After page and limit, the optional keys appear in the fixed order
      category, city, minPrice, maxPrice, search, availability, and no key
      appears twice. */
  lemma QueryKeysOrderedAndUnique(q: ItemQuery)
    ensures KeysOf(QueryParams(q))[..2] == ["page", "limit"]
    ensures IsSubsequence(KeysOf(QueryParams(q))[2..], OptionalKeys)
    ensures Distinct(KeysOf(QueryParams(q)))
  {
    var inc := Included(OptionalKeys, OptionalValues(q));
    var head := [("page", Show(WithDefault(q.page, DefaultPage))), ("limit", Show(WithDefault(q.limit, DefaultLimit)))];
    assert QueryParams(q) == head + inc;
    KeysOfAppend(head, inc);
    assert KeysOf(head) == ["page", "limit"];
    var ks := KeysOf(QueryParams(q));
    assert ks == ["page", "limit"] + KeysOf(inc);
    assert ks[..2] == ["page", "limit"] && ks[2..] == KeysOf(inc);
    IncludedKeysInOrder(OptionalKeys, OptionalValues(q));
    OptionalKeysDistinct();
    SubsequenceDistinct(KeysOf(inc), OptionalKeys);
    SubsequenceMembers(KeysOf(inc), OptionalKeys);
    DistinctAppend(["page", "limit"], KeysOf(inc));
  }

  // ----- reading a query string back ---------------------------------------------

  lemma {:induction false} SplitOnWithout(p: string, c: char)
    requires c !in p
    ensures SplitOn(p, c) == [p]
    decreases |p|
  {
    if p != [] {
      SplitOnWithout(p[1..], c);
      assert [p[0]] + p[1..] == p;
    }
  }

  lemma {:induction false} SplitOnAt(p: string, c: char, rest: string)
    requires c !in p
    ensures SplitOn(p + [c] + rest, c) == [p] + SplitOn(rest, c)
    decreases |p|
  {
    var s := p + [c] + rest;
    if p == [] {
      assert s[0] == c && s[1..] == rest;
    } else {
      assert s[0] == p[0];
      assert s[1..] == p[1..] + [c] + rest;
      SplitOnAt(p[1..], c, rest);
      assert [p[0]] + p[1..] == p;
    }
  }

  lemma {:induction false} SplitOnJoin(pieces: seq<string>)
    requires |pieces| > 0
    requires forall i :: 0 <= i < |pieces| ==> '&' !in pieces[i]
    ensures SplitOn(Join(pieces), '&') == pieces
    decreases |pieces|
  {
    if |pieces| == 1 {
      assert Join(pieces) == pieces[0];
      SplitOnWithout(pieces[0], '&');
    } else {
      var rest := pieces[1..];
      assert Tail(rest) == "&" + Join(rest);
      assert Join(pieces) == pieces[0] + ['&'] + Join(rest);
      SplitOnAt(pieces[0], '&', Join(rest));
      SplitOnJoin(rest);
      assert [pieces[0]] + rest == pieces;
    }
  }

  lemma {:induction false} SplitFirstPiece(k: string, v: string)
    requires '=' !in k
    ensures SplitFirst(Piece((k, v)), '=') == (k, v)
    decreases |k|
  {
    var s := Piece((k, v));
    if k == [] {
      assert s == "=" + v;
      assert s[1..] == v;
    } else {
      assert s[0] == k[0];
      assert s[1..] == Piece((k[1..], v));
      SplitFirstPiece(k[1..], v);
      assert [k[0]] + k[1..] == k;
    }
  }

  /** Reading a rendered parameter list gives the list back, provided no key
      holds `&` or `=` and no value holds `&`. */
  lemma ParseRenderRoundTrip(ps: seq<Param>)
    requires |ps| > 0 && Unambiguous(ps)
    ensures ParseQuery(Render(ps)) == ps
  {
    var pieces := Pieces(ps);
    forall i | 0 <= i < |pieces|
      ensures '&' !in pieces[i]
    {
      assert pieces[i] == ps[i].0 + "=" + ps[i].1;
    }
    SplitOnJoin(pieces);
    var s := Render(ps);
    assert s[1..] == Join(pieces);
    forall i | 0 <= i < |ps|
      ensures SplitFirst(pieces[i], '=') == ps[i]
    {
      SplitFirstPiece(ps[i].0, ps[i].1);
    }
  }

  lemma ShowHasNoAmpersand(v: JsValue)
    requires NoAmpersand(v)
    ensures '&' !in Show(v)
  {
  }

  lemma IncludedUnambiguous(keys: seq<string>, vals: seq<JsValue>)
    requires |keys| == |vals|
    requires forall j :: 0 <= j < |keys| ==> '&' !in keys[j] && '=' !in keys[j] && NoAmpersand(vals[j])
    ensures Unambiguous(Included(keys, vals))
  {
    var inc := Included(keys, vals);
    IncludedFrom(keys, vals);
    forall i | 0 <= i < |inc|
      ensures '&' !in inc[i].0 && '=' !in inc[i].0 && '&' !in inc[i].1
    {
      assert inc[i] in inc;
      var j :| 0 <= j < |keys| && inc[i] == (keys[j], Show(vals[j])) && Truthy(vals[j]);
      ShowHasNoAmpersand(vals[j]);
    }
  }

  lemma OptionalKeysPlain()
    ensures forall j :: 0 <= j < |OptionalKeys| ==> '&' !in OptionalKeys[j] && '=' !in OptionalKeys[j]
  {
  }

  lemma UnambiguousAppend(a: seq<Param>, b: seq<Param>)
    requires Unambiguous(a) && Unambiguous(b)
    ensures Unambiguous(a + b)
  {
    forall i | 0 <= i < |a + b|
      ensures '&' !in (a + b)[i].0 && '=' !in (a + b)[i].0 && '&' !in (a + b)[i].1
    {
      if i >= |a| {
        assert (a + b)[i] == b[i - |a|];
      }
    }
  }

  /** Every pair of a feed query is free of the separators, given no value holds `&`. */
  lemma QueryParamsUnambiguous(q: ItemQuery)
    requires NoAmpersandValues(q)
    ensures Unambiguous(QueryParams(q))
  {
    var vs := OptionalValues(q);
    var x := Show(WithDefault(q.page, DefaultPage));
    var y := Show(WithDefault(q.limit, DefaultLimit));
    assert forall j :: 0 <= j < |vs| ==> NoAmpersand(vs[j]);
    OptionalKeysPlain();
    IncludedUnambiguous(OptionalKeys, vs);
    ShowHasNoAmpersand(WithDefault(q.page, DefaultPage));
    ShowHasNoAmpersand(WithDefault(q.limit, DefaultLimit));
    PageAndLimitUnambiguous(x, y);
    assert QueryParams(q) == [("page", x), ("limit", y)] + Included(OptionalKeys, vs);
    UnambiguousAppend([("page", x), ("limit", y)], Included(OptionalKeys, vs));
  }

  /** The two leading pairs are free of the separators when their values hold no `&`. */
  lemma PageAndLimitUnambiguous(x: string, y: string)
    requires '&' !in x && '&' !in y
    ensures Unambiguous([("page", x), ("limit", y)])
  {
    assert '&' !in "page" && '=' !in "page";
    assert '&' !in "limit" && '=' !in "limit";
  }

  /** A feed query whose values hold no `&` reads back as exactly its parameters. */
  lemma QueryRoundTrip(q: ItemQuery)
    requires NoAmpersandValues(q)
    ensures ParseQuery(QueryString(q)) == QueryParams(q)
  {
    QueryStringRendersParams(q);
    QueryParamsUnambiguous(q);
    ParseRenderRoundTrip(QueryParams(q));
  }

  /** A value holding `&k2=v2` renders exactly like a separate pair `(k2, v2)`. */
  lemma SplicedValue(a: Param, b: Param, k: string, v1: string, k2: string, v2: string)
    ensures Render([a, b, (k, v1 + "&" + k2 + "=" + v2)]) == Render([a, b, (k, v1), (k2, v2)])
  {
    var c := (k, v1 + "&" + k2 + "=" + v2);
    RenderTwoThen(a, b, [c]);
    RenderTwoThen(a, b, [(k, v1), (k2, v2)]);
    assert Pieces([c]) == [Piece(c)];
    assert Pieces([(k, v1), (k2, v2)]) == [Piece((k, v1)), Piece((k2, v2))];
    assert Tail([Piece(c)]) == "&" + Piece(c) + Tail([]);
    assert Tail([Piece((k2, v2))]) == "&" + Piece((k2, v2)) + Tail([]);
    assert [Piece((k, v1)), Piece((k2, v2))][1..] == [Piece((k2, v2))];
    assert Piece(c) == Piece((k, v1)) + "&" + Piece((k2, v2));
    assert [a, b] + [c] == [a, b, c];
    assert [a, b] + [(k, v1), (k2, v2)] == [a, b, (k, v1), (k2, v2)];
    var x, y := Piece((k, v1)), Piece((k2, v2));
    assert Tail(Pieces([c])) == "&" + (x + "&" + y);
    assert Tail(Pieces([(k, v1), (k2, v2)])) == "&" + x + ("&" + y);
  }

  /** The parameters of a query that sets only a search text. */
  lemma SearchOnlyParams(text: string)
    requires text != ""
    ensures QueryParams(NoQuery.(search := Str(text))) == [("page", "1"), ("limit", "10"), ("search", text)]
  {
    var q := NoQuery.(search := Str(text));
    var c := Str(text);
    SmallNumbers();
    assert OptionalValues(q) == [Undefined, Undefined, Undefined, Undefined, c, Undefined];
    assert Included(["availability"], [Undefined]) == [];
    assert Included(["search", "availability"], [c, Undefined]) == [("search", text)];
    assert Included(["maxPrice", "search", "availability"], [Undefined, c, Undefined]) == [("search", text)];
    assert Included(["minPrice", "maxPrice", "search", "availability"], [Undefined, Undefined, c, Undefined]) == [("search", text)];
    assert Included(["city", "minPrice", "maxPrice", "search", "availability"], [Undefined, Undefined, Undefined, c, Undefined])
      == [("search", text)];
  }

  /** The decimal renderings of the two defaults. */
  lemma SmallNumbers()
    ensures Show(Num(1)) == "1" && Show(Num(10)) == "10"
  {
    assert NatToString(10) == NatToString(1) + [DigitChar(0)];
  }

  /** The four pairs a server reads from `?page=1&limit=10&search=a&city=b`. */
  function InjectedReading(): seq<Param> {
    [("page", "1"), ("limit", "10"), ("search", "a"), ("city", "b")]
  }

  lemma InjectedReadingFacts()
    ensures Unambiguous(InjectedReading())
    ensures Lookup(InjectedReading(), "city") == Some("b")
  {
    var seen := InjectedReading();
    assert seen[1..][1..][1..] == [("city", "b")];
  }

  /** Values are spliced in unencoded: a search text holding `&city=b` reads
      back as a `city` filter the caller never set. */
  lemma SearchTextInjectsParameter()
    ensures var q := NoQuery.(search := Str("a&city=b"));
      && Lookup(QueryParams(q), "city") == None
      && Lookup(ParseQuery(QueryString(q)), "city") == Some("b")
  {
    var q := NoQuery.(search := Str("a&city=b"));
    OptionalKeyPresentIffTruthy(q, 1);
    SearchOnlyParams("a&city=b");
    assert "a&city=b" == "a" + "&" + "city" + "=" + "b";
    SplicedValue(("page", "1"), ("limit", "10"), "search", "a", "city", "b");
    QueryStringRendersParams(q);
    InjectedReadingFacts();
    ParseRenderRoundTrip(InjectedReading());
  }
}

=== FILE: seqs.dfy ===
/** Order-preserving selection on sequences, shared by the reducers, the
    query builder and the screen filters. */
module Seqs {

  /** `a` can be obtained from `b` by deleting elements, keeping the order of the rest. */
  predicate IsSubsequence<T(==)>(a: seq<T>, b: seq<T>)
    decreases |b|
  {
    if a == [] then true
    else if b == [] then false
    else (a[0] == b[0] && IsSubsequence(a[1..], b[1..])) || IsSubsequence(a, b[1..])
  }

  /** Every sequence is a subsequence of itself. */
  lemma {:induction false} SubsequenceRefl<T>(a: seq<T>)
    ensures IsSubsequence(a, a)
    decreases |a|
  {
    if a != [] {
      SubsequenceRefl(a[1..]);
    }
  }

  /** Keeping the same head on both sides keeps the relation. */
  lemma SubsequenceKeep<T>(x: T, a: seq<T>, b: seq<T>)
    requires IsSubsequence(a, b)
    ensures IsSubsequence([x] + a, [x] + b)
  {
    assert ([x] + a)[1..] == a;
    assert ([x] + b)[1..] == b;
  }

  /** Dropping the head of the larger side keeps the relation. */
  lemma SubsequenceSkip<T>(x: T, a: seq<T>, b: seq<T>)
    requires IsSubsequence(a, b)
    ensures IsSubsequence(a, [x] + b)
  {
    assert ([x] + b)[1..] == b;
  }
}

=== FILE: service_lemmas.dfy ===
/** Properties of the two services that relate several of their operations:
    the owner query against the feed query, the two error classifiers against
    each other, and the session written by login against what logout removes. */
module ServiceLemmas {
  import opened Wrappers
  import opened Js
  import opened Domain
  import opened Transport
  import opened Query
  import opened Session
  import ItemsService
  import AuthService

  /** No conditional append fires when every value is falsy. */
  lemma {:induction false} SegmentsOfFalsy(keys: seq<string>, vals: seq<JsValue>)
    requires |keys| == |vals|
    requires forall i :: 0 <= i < |vals| ==> !Truthy(vals[i])
    ensures Segments(keys, vals) == ""
    ensures Included(keys, vals) == []
    decreases |keys|
  {
    if keys != [] {
      SegmentsOfFalsy(keys[1..], vals[1..]);
    }
  }

  /** The owner query is the feed query of a filter record that sets only page
      and limit: the owner path followed by `?page=P&limit=L`, with the same
      defaults, and carrying exactly those two parameters. */
  lemma OwnerQueryIsBareFeedQuery(ep: ItemsService.Endpoints, ownerId: string, page: JsValue, limit: JsValue)
    ensures var q := NoQuery.(page := page, limit := limit);
      && ItemsService.GetItemsByOwnerRequest(ep, ownerId, page, limit).path == ItemsService.ItemPath(ep.getByOwner, ownerId) + QueryString(q)
      && QueryParams(q) == [("page", Show(WithDefault(page, DefaultPage))), ("limit", Show(WithDefault(limit, DefaultLimit)))]
  {
    var q := NoQuery.(page := page, limit := limit);
    SegmentsOfFalsy(OptionalKeys, OptionalValues(q));
    assert PageAndLimit(page, limit) + "" == PageAndLimit(page, limit);
  }

  /** With no page or limit given, the owner query asks for page 1 of 10. */
  lemma OwnerQueryDefaults(ep: ItemsService.Endpoints, ownerId: string)
    ensures ItemsService.GetItemsByOwnerRequest(ep, ownerId, Undefined, Undefined).path
      == ItemsService.ItemPath(ep.getByOwner, ownerId) + "?page=1&limit=10"
  {
    assert Show(Num(1)) == "1" && Show(Num(10)) == "10";
  }

  /** Without a server answer the two classifiers agree. */
  lemma ClassifiersAgreeWithoutResponse(e: RequestError)
    requires e.response.None?
    ensures ItemsService.HandleError(e) == AuthService.HandleError(e)
    ensures ItemsService.HandleError(e).NetworkError?
  {
  }

  /** With a server answer the classifiers disagree exactly when the body holds
      a truthy `msg` that differs from what the auth chain (`message`, then the
      generic text) yields: the auth service never reads `msg`. */
  lemma ClassifiersDifferOnlyOnMsg(e: RequestError)
    requires e.response.Some?
    ensures var d := e.response.value.data;
      ItemsService.HandleError(e) != AuthService.HandleError(e)
      <==> d.Some? && TruthyText(d.value.msg) && d.value.msg.value != OrElse(d.value.message, ItemsService.ServerFallback)
  {
  }

  /** A concrete disagreement: a body with both `msg` and `message` yields the
      former from the items service and the latter from the auth service. */
  lemma ClassifiersDisagreeExample()
    ensures var e := RequestError(Some(ErrorResponse(Some(ErrorData(Some("m1"), Some("m2"))))), None);
      ItemsService.HandleError(e) == ServerError("m1") && AuthService.HandleError(e) == ServerError("m2")
  {
  }

  // ----- session -----------------------------------------------------------------

  /** After a login whose answer carries a token, on a storage that accepts
      writes and reads of the session keys, both keys read back as the token
      and the user. */
  lemma LoginThenRead(st: Storage, email: string, password: string, resp: AuthResponse)
    requires TruthyText(resp.token)
    requires AuthToken !in st.writeFailing && UserData !in st.writeFailing
    requires AuthToken !in st.readFailing && UserData !in st.readFailing
    ensures var after := AuthService.Login(st, email, password, Replied(resp)).storage;
      GetItem(after, AuthToken) == Some(TokenValue(resp.token.value))
      && GetItem(after, UserData) == Some(UserValue(resp.user))
  {
  }

  /** Logging out after such a login removes both session keys, reports it,
      and leaves every other key as it was before the login. */
  lemma LoginThenLogout(st: Storage, email: string, password: string, resp: AuthResponse, k: StorageKey)
    requires TruthyText(resp.token)
    requires AuthToken !in st.writeFailing && UserData !in st.writeFailing
    requires AuthToken !in st.removeFailing && UserData !in st.removeFailing
    ensures var (out, ok) := AuthService.LogoutChecked(AuthService.Login(st, email, password, Replied(resp)).storage);
      && ok && GetItem(out, AuthToken) == None && GetItem(out, UserData) == None
      && (k != AuthToken && k != UserData ==> GetItem(out, k) == GetItem(st, k))
  {
  }

  /** A failed login leaves a previous session in place. */
  lemma FailedLoginKeepsSession(st: Storage, email: string, password: string, e: RequestError)
    ensures AuthService.Login(st, email, password, Failed(e)).storage == st
    ensures GetItem(AuthService.Login(st, email, password, Failed(e)).storage, AuthToken) == GetItem(st, AuthToken)
  {
  }

  /** `logout` as written reports success although the token survives, when the
      platform refuses the removal: `storage.removeItem` swallows the failure,
      so logout's own `return false` is never reached. The token still reads
      back afterwards, on a platform whose reads succeed. */
  lemma LogoutReportsSuccessWithTokenKept()
    ensures var st := Storage(map[AuthToken := TokenValue("t")], {}, {}, {AuthToken});
      && AuthService.Logout(st).1
      && GetItem(AuthService.Logout(st).0, AuthToken) == Some(TokenValue("t"))
      && !AuthService.LogoutChecked(st).1
  {
  }
}

=== FILE: session.dfy ===
/** The persisted session (`storage` over AsyncStorage): a map over a fixed,
    closed set of keys. A write or removal that the platform rejects is
    swallowed and reported as `false`, and a rejected read gives `null`. Each
    of the three operations has its own `try`/`catch`, so the keys on which
    the platform rejects reads, writes and removals are three separate parts
    of the state. */
module Session {
  import opened Wrappers
  import opened Domain

  datatype StorageKey = AuthToken | UserData | RecentSearches | Favorites

  /** A stored value: the bearer token, or the user profile blob (which may be
      `undefined` when a response carried no user). */
  datatype Stored = TokenValue(token: string) | UserValue(user: Option<Profile>)

  datatype Storage = Storage(
    entries: map<StorageKey, Stored>,
    readFailing: set<StorageKey>,
    writeFailing: set<StorageKey>,
    removeFailing: set<StorageKey>)

  /** `storage.setItem(key, value)`: the new state and the success flag. */
  function SetItem(st: Storage, k: StorageKey, v: Stored): (r: (Storage, bool))
    ensures r.0 == st.(entries := r.0.entries)
    ensures r.1 <==> k !in st.writeFailing
    ensures r.1 ==> r.0.entries == st.entries[k := v]
    ensures !r.1 ==> r.0 == st
  {
    if k in st.writeFailing then (st, false) else (st.(entries := st.entries[k := v]), true)
  }

  /** `storage.removeItem(key)`: the new state and the success flag. */
  function RemoveItem(st: Storage, k: StorageKey): (r: (Storage, bool))
    ensures r.0 == st.(entries := r.0.entries)
    ensures r.1 <==> k !in st.removeFailing
    ensures r.1 ==> r.0.entries == st.entries - {k}
    ensures !r.1 ==> r.0 == st
  {
    if k in st.removeFailing then (st, false) else (st.(entries := st.entries - {k}), true)
  }

  /** `storage.getItem(key)`: the stored value, or `null` when absent or when the
      read fails. Only a failing read hides a value: refused writes and
      removals leave what is stored readable. */
  function GetItem(st: Storage, k: StorageKey): (r: Option<Stored>)
    ensures r.Some? <==> k in st.entries && k !in st.readFailing
    ensures r.Some? ==> r.value == st.entries[k]
  {
    if k in st.entries && k !in st.readFailing then Some(st.entries[k]) else None
  }

  /** A write followed by a read of the same key gives the written value back,
      when the write and the read succeed; other keys read as before. */
  lemma SetThenGet(st: Storage, k: StorageKey, v: Stored, other: StorageKey)
    requires k !in st.writeFailing && k !in st.readFailing && other != k
    ensures GetItem(SetItem(st, k, v).0, k) == Some(v)
    ensures GetItem(SetItem(st, k, v).0, other) == GetItem(st, other)
  {
  }

  /** A refused write leaves the earlier value readable. */
  lemma RefusedSetKeepsValue(st: Storage, k: StorageKey, v: Stored)
    requires k in st.writeFailing
    ensures !SetItem(st, k, v).1
    ensures GetItem(SetItem(st, k, v).0, k) == GetItem(st, k)
  {
  }

  /** A refused removal leaves the value readable, when reads succeed. */
  lemma RefusedRemoveKeepsValue(st: Storage, k: StorageKey)
    requires k in st.removeFailing && k in st.entries && k !in st.readFailing
    ensures !RemoveItem(st, k).1
    ensures GetItem(RemoveItem(st, k).0, k) == Some(st.entries[k])
  {
  }
}

=== FILE: text.dfy ===
/** String primitives the client relies on: `String.prototype.trim`,
    `toLowerCase` and the decimal rendering of integers inside template literals. */
module Text {

  /** The characters `trim` strips: ECMAScript WhiteSpace and LineTerminator. */
  predicate IsSpace(c: char) {
    || c == '\t' || c == '\U{000B}' || c == '\U{000C}' || c == ' ' || c == '\U{00A0}' || c == '\U{FEFF}'
    || c == '\n' || c == '\r' || c == '\U{2028}' || c == '\U{2029}'
    || c == '\U{1680}' || ('\U{2000}' <= c <= '\U{200A}') || c == '\U{202F}' || c == '\U{205F}' || c == '\U{3000}'
  }

  /** Every character of `s` is whitespace (vacuously so for ""). */
  predicate AllSpace(s: string) {
    forall i :: 0 <= i < |s| ==> IsSpace(s[i])
  }

  /** Every character of `s` in `[lo, hi)` is whitespace. */
  predicate SpaceBetween(s: string, lo: int, hi: int)
    requires 0 <= lo && hi <= |s|
  {
    forall k :: lo <= k < hi ==> IsSpace(s[k])
  }

  /** The index of the first non-whitespace character at or after `i`, or
      `|s|` when there is none. */
  function SkipSpace(s: string, i: nat): (j: nat)
    requires i <= |s|
    ensures i <= j <= |s| && SpaceBetween(s, i, j)
    ensures j < |s| ==> !IsSpace(s[j])
    decreases |s| - i
  {
    if i < |s| && IsSpace(s[i]) then SkipSpace(s, i + 1) else i
  }

  /** Walking back from `j` but not past `lo`: the end of the last
      non-whitespace character, or `lo` when there is none. */
  function SkipSpaceBack(s: string, lo: nat, j: nat): (i: nat)
    requires lo <= j <= |s|
    ensures lo <= i <= j && SpaceBetween(s, i, j)
    ensures i > lo ==> !IsSpace(s[i - 1])
    decreases j
  {
    if j > lo && IsSpace(s[j - 1]) then SkipSpaceBack(s, lo, j - 1) else j
  }

  /** `String.prototype.trim`: the slice of `s` left after cutting whitespace
      off both ends. */
  function Trim(s: string): (r: string)
    ensures |r| <= |s|
    ensures r == [] || (!IsSpace(r[0]) && !IsSpace(r[|r| - 1]))
  {
    var a := SkipSpace(s, 0);
    s[a..SkipSpaceBack(s, a, |s|)]
  }

  /** `Trim(s)` is the slice from the first non-whitespace character to the
      last one, and everything outside it is whitespace. */
  lemma TrimIsSlice(s: string)
    ensures var a := SkipSpace(s, 0);
      var b := SkipSpaceBack(s, a, |s|);
      && Trim(s) == s[a..b]
      && (a < b ==> !IsSpace(s[a]) && !IsSpace(s[b - 1]))
      && SpaceBetween(s, 0, a) && SpaceBetween(s, b, |s|)
  {
  }

  /** A string is trimmed to "" exactly when it is all whitespace: the client's
      `!x.trim()` emptiness test. */
  lemma TrimEmptyIff(s: string)
    ensures Trim(s) == [] <==> AllSpace(s)
  {
    var a := SkipSpace(s, 0);
    var b := SkipSpaceBack(s, a, |s|);
    if AllSpace(s) {
      assert a == |s|;
    } else {
      var k :| 0 <= k < |s| && !IsSpace(s[k]);
      assert a <= k < b;
    }
  }

  /** A string with no whitespace at either end is its own trim. */
  lemma TrimOfTrimmed(s: string)
    requires s == [] || (!IsSpace(s[0]) && !IsSpace(s[|s| - 1]))
    ensures Trim(s) == s
  {
    if s != [] {
      assert SkipSpace(s, 0) == 0;
      assert SkipSpaceBack(s, 0, |s|) == |s|;
    }
  }

  /** Trimming twice is trimming once. */
  lemma TrimIdempotent(s: string)
    ensures Trim(Trim(s)) == Trim(s)
  {
    TrimOfTrimmed(Trim(s));
  }

  /** The ASCII case mapping of `toLowerCase`. */
  function LowerChar(c: char): char {
    if 'A' <= c <= 'Z' then (c as int - 'A' as int + 'a' as int) as char else c
  }

  /** `toLowerCase`, on the ASCII letters. */
  function Lower(s: string): (r: string)
    ensures |r| == |s|
    ensures forall i :: 0 <= i < |s| ==> r[i] == LowerChar(s[i])
  {
    seq(|s|, i requires 0 <= i < |s| => LowerChar(s[i]))
  }

  /** A lower-cased string holds no upper-case ASCII letter, is unchanged by a
      second lower-casing, and keeps every non-letter in place. */
  lemma LowerNormalises(s: string)
    ensures forall i :: 0 <= i < |s| ==> !('A' <= Lower(s)[i] <= 'Z')
    ensures Lower(Lower(s)) == Lower(s)
    ensures forall i :: 0 <= i < |s| && !('A' <= s[i] <= 'Z') ==> Lower(s)[i] == s[i]
  {
  }

  /** Lower-casing neither creates nor removes whitespace. */
  lemma LowerCharKeepsSpace(c: char)
    ensures IsSpace(LowerChar(c)) <==> IsSpace(c)
  {
    if 'A' <= c <= 'Z' {
      assert 'a' <= LowerChar(c) <= 'z';
    }
  }

  /** Lower-casing a trimmed string leaves it trimmed. */
  lemma LowerKeepsTrimmed(s: string)
    requires s == [] || (!IsSpace(s[0]) && !IsSpace(s[|s| - 1]))
    ensures Trim(Lower(s)) == Lower(s)
  {
    var l := Lower(s);
    if s != [] {
      assert l[0] == LowerChar(s[0]) && l[|l| - 1] == LowerChar(s[|s| - 1]);
      LowerCharKeepsSpace(s[0]);
      LowerCharKeepsSpace(s[|s| - 1]);
    }
    TrimOfTrimmed(l);
  }

  /** The UTF-16 code units one character takes: two for a character outside
      the Basic Multilingual Plane (a surrogate pair), one otherwise. */
  function Utf16Units(c: char): nat {
    if c as int > 0xFFFF then 2 else 1
  }

  /** `String.prototype.length`: the number of UTF-16 code units, which is
      not the number of characters once a character needs a surrogate pair. */
  function Utf16Length(s: string): (n: nat)
    ensures |s| <= n <= 2 * |s|
  {
    if s == [] then 0 else Utf16Units(s[0]) + Utf16Length(s[1..])
  }

  /** Every character of `s` fits in one UTF-16 code unit. */
  predicate InBmp(s: string) {
    forall i :: 0 <= i < |s| ==> s[i] as int <= 0xFFFF
  }

  /** `.length` counts characters exactly when no character needs a surrogate pair. */
  lemma {:induction false} Utf16LengthIsCount(s: string)
    ensures Utf16Length(s) == |s| <==> InBmp(s)
  {
    if s != [] {
      Utf16LengthIsCount(s[1..]);
      if InBmp(s) {
        assert InBmp(s[1..]) by {
          forall i | 0 <= i < |s[1..]| ensures s[1..][i] as int <= 0xFFFF {
            assert s[1..][i] == s[i + 1];
          }
        }
      } else {
        var k :| 0 <= k < |s| && s[k] as int > 0xFFFF;
        if k > 0 {
          assert s[1..][k - 1] == s[k];
        }
      }
    }
  }

  /** The character of a single decimal digit. */
  function DigitChar(d: nat): (c: char)
    requires d < 10
    ensures '0' <= c <= '9'
  {
    ('0' as int + d) as char
  }

  predicate IsDigit(c: char) {
    '0' <= c <= '9'
  }

  /** The decimal rendering of `n`, most significant digit first, as
      `${n}` produces it. */
  function NatToString(n: nat): (r: string)
    ensures |r| > 0
    ensures forall i :: 0 <= i < |r| ==> IsDigit(r[i])
    decreases n
  {
    if n < 10 then [DigitChar(n)] else NatToString(n / 10) + [DigitChar(n % 10)]
  }

  /** `${i}` for an integer: a minus sign before the magnitude when negative. */
  function IntToString(i: int): (r: string)
    ensures |r| > 0
    ensures forall k :: 0 <= k < |r| ==> IsDigit(r[k]) || r[k] == '-'
  {
    if i < 0 then "-" + NatToString(-i) else NatToString(i)
  }

  /** The number a string of decimal digits denotes (the reading side). */
  function DigitsValue(s: string): nat
    requires forall i :: 0 <= i < |s| ==> IsDigit(s[i])
    decreases |s|
  {
    if s == [] then 0
    else
      assert IsDigit(s[|s| - 1]);
      10 * DigitsValue(s[..|s| - 1]) + (s[|s| - 1] as int - '0' as int)
  }

  /** Reading back a rendered number gives the number: the rendering loses nothing. */
  lemma {:induction false} NatToStringRoundTrip(n: nat)
    ensures DigitsValue(NatToString(n)) == n
    decreases n
  {
    if n >= 10 {
      var s := NatToString(n);
      NatToStringRoundTrip(n / 10);
      assert s[..|s| - 1] == NatToString(n / 10);
    }
  }

  /** Distinct numbers render differently. */
  lemma NatToStringInjective(m: nat, n: nat)
    requires NatToString(m) == NatToString(n)
    ensures m == n
  {
    NatToStringRoundTrip(m);
    NatToStringRoundTrip(n);
  }
}

=== FILE: transport.dfy ===
/** What crosses the network boundary: request descriptors, the response
    bodies the client reads, and the shape of a failed request. The transport
    itself is abstract: every call is given the `Reply` it would produce. */
module Transport {
  import opened Wrappers
  import opened Domain

  datatype Verb = Get | Post | Put | Patch | Delete

  datatype Body =
    | NoBody
    | ItemBody(item: ItemData)
    | AvailabilityBody(availability: string)
    | CredentialsBody(email: string, password: string)
    | RegisterBody(registration: RegisterData)
    | ProfileBody(profile: Profile)

  /** One HTTP request as the services issue it. */
  datatype Request = Request(verb: Verb, path: string, body: Body)

  /** The parsed error body of a non-2xx response. */
  datatype ErrorData = ErrorData(msg: Option<string>, message: Option<string>)

  /** The `response` part of a failed request: present when the server answered. */
  datatype ErrorResponse = ErrorResponse(data: Option<ErrorData>)

  /** A failure as the HTTP layer raises it: `error.response` and `error.message`. */
  datatype RequestError = RequestError(response: Option<ErrorResponse>, message: Option<string>)

  /** The uniform error a service throws after classification; screens read only
      its message. */
  datatype ClassifiedError = ServerError(message: string) | NetworkError(message: string)

  /** What the transport produced for one request. */
  datatype Reply<+T> = Replied(body: T) | Failed(error: RequestError)

  /** A paginated listing response. Absent fields are `undefined`. */
  datatype PageResponse = PageResponse(
    items: Option<seq<Listing>>,
    currentPage: Option<int>,
    totalPages: Option<int>,
    totalItems: Option<int>)

  /** A single-listing response; the detail screen reads its `data` field. */
  datatype ItemResponse = ItemResponse(data: Option<Listing>)

  /** A login, register or profile-update response. */
  datatype AuthResponse = AuthResponse(user: Option<Profile>, token: Option<string>)

  /** A response whose body the caller ignores (delete, availability patch, create). */
  datatype Ack = Ack
}

=== FILE: wrappers.dfy ===
/** Option and Result, the two failure-carrying shapes the rest of the model uses
    in place of JavaScript's `undefined`/`null` and thrown errors. */
module Wrappers {

  /** A value that may be absent (`undefined` or `null` in the client). */
  datatype Option<+T> = None | Some(value: T) {

    /** The value, or `default` when absent: the client's `x || default` on objects. */
    function GetOr(default: T): T {
      match this
      case Some(v) => v
      case None => default
    }
  }

  /** The outcome of an awaited call: its value, or the error it threw. */
  datatype Result<+R, +E> = Success(value: R) | Failure(error: E)
}
